=== FILE: README.md ===
# Page-float bookkeeping of `vivliostyle.pagefloat`

This project models the layer of Vivliostyle's layout engine that keeps track of page floats. Page floats are figures, sidebars and other out-of-flow boxes that CSS attaches to a page, a region or a column. It covers:

- the `PageFloatStore`, which registers floats and gives them the ids `pf0`, `pf1`, …;
- the tree of `PageFloatLayoutContext`s (page → region → column below a root);
- every per-context operation: adding floats, forbidding them, recording, finding and removing placed fragments, registering anchors, deferring floats to the next fragmentainer and reading the deferred lists back, the end-of-fragmentainer reconciliation `finish`, invalidation, and the exclusion shapes of placed fragments.

Every row below cites the test of `test/spec/vivliostyle/pagefloat-spec.js` that exercises the behaviour. Where a row states more than those tests can tell apart, the choice is listed under "Choices the suite leaves open".

## Modules

| file | module | contents |
|---|---|---|
| `wrappers.dfy` | `Wrappers` | `Option`, and `Result` with `:-` propagation |
| `page_floats.dfy` | `PageFloats` | float references, float sides, `PageFloat`, `Fragment`, `Continuation`, error kinds |
| `float_ids.dfy` | `FloatIds` | the `"pf" + decimal` id scheme and its parser |
| `float_store.dfy` | `FloatStore` | `addPageFloat` and `findPageFloatBySourceNode` of the store |
| `seqs.dfy` | `Seqs` | sequence helpers |
| `context_tree.dfy` | `ContextTree` | the context tree, the constructor, scope resolution, `getPreviousSibling`, `invalidate`, `validate`, `isInvalidated` |
| `context_ops.dfy` | `ContextOps` | forbid, fragments, anchors, deferral, the two getters, exclusions |
| `finish.dfy` | `FinishStep` | `finish` |
| `scenarios.dfy` | `Scenarios` | the suite's own examples, stated as lemmas about the model |

### Representation

- All contexts live in one arena: `seq<Context>`, where a context's id is its index.
  - The root is context 0 and has no float reference.
  - A context's parent always has a smaller id, since it was created earlier. Every upward walk terminates because of this.
- A `World` holds the store, the arena and an event log.
- Exceptions become `Result` values: a duplicate source node gives `DuplicateSource`, and a float reference with no matching ancestor gives `ScopeResolution`.
- Scope resolution (`ContextTree.Resolve`) finds the nearest context, counting the start context itself, whose float reference equals the float's. Every operation on fragments, anchors, forbidden marks and continuations acts on that context.

Calls into the DOM and onto spied methods become events in the log:

| event | recorded when |
|---|---|
| `AddFragmentCalled(c, frag)` | `c.addPageFloatFragment(frag)` is entered |
| `InvalidateCalled(c)` | `c.invalidate()` is called |
| `ContainerCleared(container)` | `container.clear()` is called |
| `ElementDetached(element)` | `element.parentNode.removeChild(element)` is called |

Two DOM queries are passed in as parameters instead:
- `container.element.contains` becomes the set of view nodes the container holds;
- the anchor test that `finish` consults becomes a predicate on float ids.

## Model

| member | source | states |
|---|---|---|
| `FloatIds.IdRoundTrip` | test/spec/vivliostyle/pagefloat-spec.js:28-41 | the id given to the n-th float, `"pf" + n`, parses back to n, so ids carry their registration index |
| `FloatIds.IdsDistinct` | test/spec/vivliostyle/pagefloat-spec.js:28-41 | floats registered at different positions get different ids |
| `FloatIds.ParseDecimalOfDecimal` | test/spec/vivliostyle/pagefloat-spec.js:28-41 | the decimal rendering of an index used in ids reads back to the same number |
| `FloatIds.IdOf` | test/spec/vivliostyle/pagefloat-spec.js:28-41 | an id is `pf` followed by a non-empty run of digits |
| `FloatStore.Empty` | test/spec/vivliostyle/pagefloat-spec.js:10-14 | a new store satisfies the store invariant (ids follow positions, source nodes unique) |
| `FloatStore.AddPageFloat` | test/spec/vivliostyle/pagefloat-spec.js:16-53 | fails with a duplicate-source error exactly when a float from the same source node is registered; otherwise appends the float with id `pf<count>` and the given reference, side and source node |
| `FloatStore.AddPreservesValid` | test/spec/vivliostyle/pagefloat-spec.js:28-53 | a successful add keeps ids in step with positions and source nodes unique |
| `FloatStore.IdsUnique` | test/spec/vivliostyle/pagefloat-spec.js:28-41 | in a valid store no two floats share an id |
| `FloatStore.FindPageFloatBySourceNode` | test/spec/vivliostyle/pagefloat-spec.js:56-71 | returns a registered float from that source node, and null exactly when none is registered |
| `FloatStore.AddThenFind` | test/spec/vivliostyle/pagefloat-spec.js:57-63 | after a successful add, finding by the same source node returns the float just added |
| `FloatStore.DuplicateRefused` | test/spec/vivliostyle/pagefloat-spec.js:43-53 | adding a second float with an already registered source node throws, and the first stays registered |
| `Scenarios.StoreScenario` | test/spec/vivliostyle/pagefloat-spec.js:17-63 | the suite's store example: two floats get `pf0` and `pf1`, the first is found by its node, and re-adding its node throws |
| `Scenarios.StoreMissScenario` | test/spec/vivliostyle/pagefloat-spec.js:65-71 | finding by a node no float came from returns null |
| `ContextTree.Init` | test/spec/vivliostyle/pagefloat-spec.js:75-79 | the root context alone is a well-formed tree, with an empty store and no calls made |
| `ContextTree.NewContext` | test/spec/vivliostyle/pagefloat-spec.js:81-103 | the constructor appends the new context to its parent's children and inherits a missing writing mode or direction from the parent; the new context starts with no fragments, forbidden floats, anchors or continuations; nothing else changes |
| `Scenarios.ConstructorScenario` | test/spec/vivliostyle/pagefloat-spec.js:81-103 | a region under a `vertical-rl`/`rtl` page inherits both, and each context is registered as its parent's child |
| `ContextTree.Resolve` | test/spec/vivliostyle/pagefloat-spec.js:172-232 | scope resolution yields a context at or above the start whose float reference is the requested one, or the scope-resolution error |
| `ContextTree.ResolveIsNearest` | test/spec/vivliostyle/pagefloat-spec.js:172-232 | resolution fails exactly when no context on the path from the root has the reference; otherwise it yields the deepest such context on that path |
| `ContextTree.ResolveKept` | test/spec/vivliostyle/pagefloat-spec.js:172-232 | creating contexts, or changing contexts without moving them in the tree, never changes where an existing context resolves |
| `ContextTree.PreviousSibling` | test/spec/vivliostyle/pagefloat-spec.js:106-138 | a previous sibling, when found, has the same float reference as the context asking |
| `ContextTree.FirstChildOfRootHasNoPreviousSibling` | test/spec/vivliostyle/pagefloat-spec.js:107-111 | the first page below the root has no previous sibling |
| `ContextTree.PreviousSiblingIsLastPreceding` | test/spec/vivliostyle/pagefloat-spec.js:106-138 | the answer is the last context with the asker's float reference among the contexts before it in document order that are not its ancestors (the search does not enter a context of that reference), and null when there is none; where a parent no longer lists the child on the way up (it was invalidated after the child was made), no sibling at that level counts as before it |
| `ContextTree.LastIndexWith` | test/spec/vivliostyle/pagefloat-spec.js:106-138 | finds the position of the last context of a list with a given reference, with none after it; none exactly when no context of the list has it |
| `ContextTree.ImmediatePreviousSibling` | test/spec/vivliostyle/pagefloat-spec.js:113-121 | a context whose immediately preceding sibling has the same float reference gets that sibling |
| `Scenarios.ThreePagesShape` | test/spec/vivliostyle/pagefloat-spec.js:113-121 | three pages created in turn below the root become its children 1, 2, 3 |
| `Scenarios.ThreePagesScenario` | test/spec/vivliostyle/pagefloat-spec.js:107-121 | of three sibling pages, the third finds the second, the second finds the first, and the first finds none |
| `Scenarios.NineContextsShape` | test/spec/vivliostyle/pagefloat-spec.js:123-137 | the nine contexts of the suite, created in its order, form the expected page/region/column tree |
| `Scenarios.PreviousSiblingOfNine` | test/spec/vivliostyle/pagefloat-spec.js:123-137 | the column in the second page's region finds the last column of the first page's last region (9 → 6) |
| `Scenarios.PreviousSiblingOfEight` | test/spec/vivliostyle/pagefloat-spec.js:123-137 | the region of the second page finds the first page's last region (8 → 4) |
| `Scenarios.PreviousSiblingOfSeven` | test/spec/vivliostyle/pagefloat-spec.js:123-137 | the second page finds the first page (7 → 1) |
| `Scenarios.PreviousSiblingOfFive` | test/spec/vivliostyle/pagefloat-spec.js:123-137 | the first column of the second region finds the column of the first region (5 → 3) |
| `ContextOps.AddPageFloat` | test/spec/vivliostyle/pagefloat-spec.js:141-156 | adding through a context registers the float in the shared store and records it at that context (the second part is a choice the suite leaves open); the float carries the given source node, reference and side; it fails exactly when the source node is taken |
| `ContextOps.FindPageFloatBySourceNode` | test/spec/vivliostyle/pagefloat-spec.js:141-156 | lookup from any context goes to the one store shared by the whole tree |
| `ContextOps.FloatVisibleEverywhere` | test/spec/vivliostyle/pagefloat-spec.js:141-156 | a float added through one context is found through every other context |
| `Scenarios.SiblingPagesFindScenario` | test/spec/vivliostyle/pagefloat-spec.js:142-156 | two sibling pages each add a float, and each page finds both |
| `ContextOps.Forbid` | test/spec/vivliostyle/pagefloat-spec.js:159-232 | forbidding marks the float at the context its reference resolves to, and only there; it throws when nothing resolves |
| `ContextOps.IsForbiddenOnLineage` | test/spec/vivliostyle/pagefloat-spec.js:159-232 | `isForbidden` throws exactly when no context from the root down to the asker has the float's reference; otherwise it answers whether the deepest such context holds the mark |
| `ContextTree.DeepestIsResolved` | test/spec/vivliostyle/pagefloat-spec.js:172-232 | the deepest context of the asker's lineage with the float's reference is the one its reference resolves to |
| `ContextOps.ForbidThenIsForbidden` | test/spec/vivliostyle/pagefloat-spec.js:172-232 | after forbidding, every context that resolves to the same place, including contexts below it, reports the float forbidden |
| `ContextOps.ForbidIsScoped` | test/spec/vivliostyle/pagefloat-spec.js:172-232 | contexts that resolve elsewhere, such as a fresh page's subtree, keep their old answer |
| `Scenarios.ForbidOwnScenario` | test/spec/vivliostyle/pagefloat-spec.js:160-170 | a page float is not forbidden on its page until forbidden there |
| `Scenarios.ForbidColumnScenario` | test/spec/vivliostyle/pagefloat-spec.js:172-185 | a column float forbidden in a column: forbidden there, a throw at the region, not forbidden in a new sibling column |
| `Scenarios.ForbidRegionScenario` | test/spec/vivliostyle/pagefloat-spec.js:187-203 | a region float forbidden from a column: forbidden in the column, the region and new columns of that region; a throw at the page; not forbidden in a new region |
| `Scenarios.ForbidPageScenario` | test/spec/vivliostyle/pagefloat-spec.js:205-231 | a page float forbidden from a column: forbidden at every level of that page, including new regions and columns; not forbidden anywhere in a new page |
| `ContextOps.AddPageFloatFragment` | test/spec/vivliostyle/pagefloat-spec.js:235-318 | adding a fragment throws exactly when the float's reference resolves nowhere; otherwise the tree, the store and earlier calls are kept |
| `ContextOps.AddFragmentEffect` | test/spec/vivliostyle/pagefloat-spec.js:251-318 | the fragment is appended at the owning context only; every context on the path from the start up to the owner is invalidated; all other contexts are unchanged |
| `ContextOps.AddFragmentCalls` | test/spec/vivliostyle/pagefloat-spec.js:287-318 | `addPageFloatFragment` is entered at a context exactly when that context lies on the path from the start up to the owner |
| `ContextOps.InvalidateCalls` | test/spec/vivliostyle/pagefloat-spec.js:287-318 | `invalidate` is called on a context exactly when that context lies on the path from the start up to the owner |
| `Scenarios.ColumnFragmentCascadeScenario` | test/spec/vivliostyle/pagefloat-spec.js:288-294 | for a column float, only the column is entered and invalidated (the suite checks that the calls happen; the order in the log is the model's) |
| `Scenarios.RegionFragmentCascadeScenario` | test/spec/vivliostyle/pagefloat-spec.js:296-306 | for a region float, the column hands the fragment to the region; both are invalidated, and the page is not entered (the suite checks that the calls happen; the order in the log is the model's) |
| `Scenarios.PageFragmentCascadeScenario` | test/spec/vivliostyle/pagefloat-spec.js:308-317 | for a page float, column, region and page are each entered and invalidated (the suite checks that the calls happen; the order in the log is the model's) |
| `ContextOps.FragmentOf` | test/spec/vivliostyle/pagefloat-spec.js:251-262 | the fragment found in a list belongs to the float asked for, and there is none exactly when no listed fragment belongs to it |
| `ContextOps.FindPageFloatFragment` | test/spec/vivliostyle/pagefloat-spec.js:251-285 | looks in the resolved owner: finds one of its fragments for that float or null when it has none; throws when nothing resolves |
| `ContextOps.AddThenFindFragment` | test/spec/vivliostyle/pagefloat-spec.js:251-285 | once added, a fragment is found from every context that resolves to the same owner; contexts that resolve nowhere still throw |
| `Scenarios.FindFragmentInAncestorAdds` | test/spec/vivliostyle/pagefloat-spec.js:264-269 | a fragment of a region float added from the column is handed to the region, which held no fragment of that float before |
| `Scenarios.FindFragmentInAncestorFinds` | test/spec/vivliostyle/pagefloat-spec.js:270-274 | a region float's fragment is found from a new column of that region and from the region itself; the page throws |
| `Scenarios.PageFragmentFromColumn` | test/spec/vivliostyle/pagefloat-spec.js:276-279 | a page float's fragment added from the column is held by the page, as the first fragment of that float |
| `Scenarios.FindFragmentFromNewDescendants` | test/spec/vivliostyle/pagefloat-spec.js:279-284 | the page's fragment is found from a region and a column created afterwards below the page, and from the page itself |
| `ContextOps.RemovePageFloatFragment` | test/spec/vivliostyle/pagefloat-spec.js:321-358 | removal takes the first copy of the fragment out of its owner, keeping the other fragments in order, detaches the area's element and then invalidates the owner; other contexts are unchanged |
| `ContextOps.RemoveUniqueLeavesNone` | test/spec/vivliostyle/pagefloat-spec.js:340-346 | removing the single fragment of a float leaves no fragment of that float |
| `ContextOps.RemoveThenFindFragment` | test/spec/vivliostyle/pagefloat-spec.js:340-346 | after removal, finding the float's fragment returns null from every context that resolves to the owner |
| `Scenarios.RemoveFragmentScenario` | test/spec/vivliostyle/pagefloat-spec.js:321-358 | a page without a container: the fragment is found, then removed; the element is detached and the page invalidated, and nothing else is called |
| `ContextOps.RegisterPageFloatAnchor` | test/spec/vivliostyle/pagefloat-spec.js:361-393 | the anchor is stored under the float's id at the resolved owner and nowhere else |
| `ContextOps.RegisterOnlyAtOwner` | test/spec/vivliostyle/pagefloat-spec.js:378-393 | after registration, a context that had no anchor for the float has one exactly when it is the owner |
| `Scenarios.RegisterAnchorScenario` | test/spec/vivliostyle/pagefloat-spec.js:378-393 | a region float's anchor lands in the region and not the column; a page float's anchor lands in the page only |
| `ContextOps.NewContextNoneAppeared` | test/spec/vivliostyle/pagefloat-spec.js:396-411 | on a context just created, no float's anchor has appeared, whatever the container holds |
| `ContextOps.AddPageFloatKeepsAppeared` | test/spec/vivliostyle/pagefloat-spec.js:405-411 | adding a float, as the fixture does before asking, changes no context's answer, so an unregistered anchor stays not appeared |
| `ContextOps.RegisterThenAppeared` | test/spec/vivliostyle/pagefloat-spec.js:415-436 | after registration, the anchor has appeared exactly when the container holds it or the float was carried over |
| `Scenarios.AnchorAppearedScenario` | test/spec/vivliostyle/pagefloat-spec.js:396-436 | unregistered: false; registered but not contained: false; registered and contained: true; carried over: true |
| `ContextOps.ContinuationIndex` | test/spec/vivliostyle/pagefloat-spec.js:456-472 | the position returned is the first continuation of the float, or the end of the list when there is none |
| `ContextOps.ReplaceOrAppend` | test/spec/vivliostyle/pagefloat-spec.js:447-472 | the new continuation replaces one for the same float in place, or is appended when there is none; other entries keep their places; at most one continuation per float is kept |
| `ContextOps.DeferPageFloat` | test/spec/vivliostyle/pagefloat-spec.js:439-482 | deferring stores a continuation carrying the owner's flow name (a choice the suite leaves open) in the owner's deferred-to-next list; nothing else changes; it throws when nothing resolves |
| `ContextOps.DeferTwiceReplaces` | test/spec/vivliostyle/pagefloat-spec.js:456-472 | deferring the same float twice leaves one continuation, holding the second position |
| `Scenarios.DeferScenario` | test/spec/vivliostyle/pagefloat-spec.js:447-482 | the suite's defer examples: one entry with flow `foo`; replaced in place by the second position; a region float lands in the region, not the column |
| `ContextOps.FilterFlow` | test/spec/vivliostyle/pagefloat-spec.js:505-508 | keeps exactly the continuations of the requested flow, in order; without a flow it keeps all |
| `ContextOps.FilterFlowAppend` | test/spec/vivliostyle/pagefloat-spec.js:485-542 | filtering a concatenation filters each part and concatenates the results, so the entries keep their order |
| `ContextOps.EffectiveFlow` | test/spec/vivliostyle/pagefloat-spec.js:505-512 | an explicit flow-name argument wins; otherwise the context's own flow name applies; there is no filter only when neither is given |
| `ContextOps.CollectMembers` | test/spec/vivliostyle/pagefloat-spec.js:485-542 | the collected list holds exactly the continuations of the filtered flow found in some context on the path from the root |
| `ContextOps.CollectFollowsLineage` | test/spec/vivliostyle/pagefloat-spec.js:505-542 | the collected list is the concatenation of each context's filtered list, going down from the root (page, then region, then column) |
| `ContextOps.GetDeferredPageFloatContinuations` | test/spec/vivliostyle/pagefloat-spec.js:485-512 | returns exactly the continuations deferred from the previous fragmentainer on the path from the root that pass the effective flow filter, in order: the filtered list of each context on the path, root first (page, then region, then column) |
| `ContextOps.GetPageFloatContinuationsDeferredToNext` | test/spec/vivliostyle/pagefloat-spec.js:515-542 | returns exactly the continuations deferred to the next fragmentainer on the path from the root that pass the effective flow filter, in order: the filtered list of each context on the path, root first (page, then region, then column) |
| `Scenarios.CollectFooScenario` | test/spec/vivliostyle/pagefloat-spec.js:505-508 | with flow `foo` from the column, the result is cont1, cont3, cont5 |
| `Scenarios.CollectBarScenario` | test/spec/vivliostyle/pagefloat-spec.js:505-508 | with flow `bar` from the column, the result is cont2, cont4, cont6 |
| `Scenarios.CollectUnfilteredScenario` | test/spec/vivliostyle/pagefloat-spec.js:510-512 | from the page, which has no flow name, the result is cont1, cont2 |
| `Scenarios.GettersScenario` | test/spec/vivliostyle/pagefloat-spec.js:485-542 | both getters return the lists of the suite's six examples |
| `FinishStep.LastUnappeared` | test/spec/vivliostyle/pagefloat-spec.js:570-592 | finds the last fragment whose anchor has not appeared, with every later fragment appeared; there is none exactly when all have appeared |
| `FinishStep.KeepAppeared` | test/spec/vivliostyle/pagefloat-spec.js:594-606 | keeps exactly the continuations whose float's anchor has appeared, without introducing duplicates |
| `FinishStep.KeepAppearedAppend` | test/spec/vivliostyle/pagefloat-spec.js:594-606 | keeping the appeared continuations of a concatenation keeps those of each part, concatenated, so their order is kept |
| `FinishStep.Transfer` | test/spec/vivliostyle/pagefloat-spec.js:594-617 | extends the kept list by the continuations from the previous fragmentainer that are not already there and whose float has no fragment; it succeeds when every carried-over float belongs to the context's level, and it throws only if such a float's reference resolves nowhere |
| `FinishStep.Unplaced` | test/spec/vivliostyle/pagefloat-spec.js:594-617 | reference definition of what the transfer appends: exactly the carried-over continuations not yet listed whose float has no fragment, in their order |
| `FinishStep.UnplacedIgnores` | test/spec/vivliostyle/pagefloat-spec.js:594-617 | listing a continuation that the carried-over list does not hold leaves the unplaced ones unchanged |
| `FinishStep.TransferInOrder` | test/spec/vivliostyle/pagefloat-spec.js:594-617 | when no continuation was carried over twice, a successful transfer is the kept list followed by the unplaced continuations in the order they were carried over |
| `FinishStep.Finish` | test/spec/vivliostyle/pagefloat-spec.js:545-617 | succeeds on a context whose fragments and carried-over continuations all belong to floats of its own level; it keeps the tree and the store |
| `FinishStep.FinishRemovesLastUnappeared` | test/spec/vivliostyle/pagefloat-spec.js:570-592 | with an unappeared fragment, exactly the last one is removed (the other fragments keep their order), its element detached, its float forbidden and the context invalidated; the deferred-to-next list is untouched |
| `FinishStep.FinishTransfers` | test/spec/vivliostyle/pagefloat-spec.js:594-617 | with all fragments appeared, only the deferred-to-next list changes: it starts with the appeared continuations in their old order and otherwise holds the carried-over ones without a fragment, appended in the order they were carried over when none was carried over twice; no call is made |
| `Scenarios.FixtureIdsDistinct` | test/spec/vivliostyle/pagefloat-spec.js:546-567 | the five floats of the fixture have different ids |
| `Scenarios.FinishFixture` | test/spec/vivliostyle/pagefloat-spec.js:546-567 | the setup registers four floats in a column, adds fragment1 and fragment2 and carries [cont3] to the next fragmentainer |
| `Scenarios.FinishNoneAppearedRemoves` | test/spec/vivliostyle/pagefloat-spec.js:570-579 | nothing appeared: fragment2 is removed, its element detached and the column invalidated; the fragments are exactly [fragment1] and the list stays [cont3] |
| `Scenarios.FinishNoneAppearedForbids` | test/spec/vivliostyle/pagefloat-spec.js:570-579 | nothing appeared: float2 is forbidden and float1 is not |
| `Scenarios.FinishLastAppearedRemoves` | test/spec/vivliostyle/pagefloat-spec.js:581-592 | only float2 appeared: fragment1 is removed, its element detached and the column invalidated; fragment2 stays |
| `Scenarios.FinishLastAppearedMarks` | test/spec/vivliostyle/pagefloat-spec.js:581-592 | only float2 appeared: exactly float1 is recorded as forbidden and the list stays [cont3] |
| `Scenarios.FinishLastAppearedForbids` | test/spec/vivliostyle/pagefloat-spec.js:581-592 | only float2 appeared: float1 is forbidden and float2 is not |
| `Scenarios.FinishDropsUnappearedScenario` | test/spec/vivliostyle/pagefloat-spec.js:594-606 | with [cont3, cont5] deferred and only float1 and float2 appeared: no removal, and the list becomes [cont3, cont4] |
| `Scenarios.FinishAllAppearedScenario` | test/spec/vivliostyle/pagefloat-spec.js:608-617 | everything appeared: no removal, and the list becomes [cont3, cont4] |
| `ContextTree.Invalidate` | test/spec/vivliostyle/pagefloat-spec.js:620-657 | marks the context invalid, clears its container when it has one, forgets its anchors and children, and leaves other contexts alone |
| `ContextTree.InvalidateReach` | test/spec/vivliostyle/pagefloat-spec.js:665-699 | invalidating a context makes it and every context below it report invalidated; other contexts keep their answer |
| `Scenarios.InvalidateContainerScenario` | test/spec/vivliostyle/pagefloat-spec.js:627-634 | invalidating a page with a container clears the container |
| `ContextOps.InvalidateForgetsAnchors` | test/spec/vivliostyle/pagefloat-spec.js:636-647 | after invalidation, an anchor counts as appeared only for a float carried over from the previous fragmentainer |
| `Scenarios.InvalidateForgetsAnchorScenario` | test/spec/vivliostyle/pagefloat-spec.js:636-647 | a registered anchor is gone after invalidation |
| `Scenarios.InvalidateClearsChildrenScenario` | test/spec/vivliostyle/pagefloat-spec.js:649-657 | a page with a region child has no children after invalidation |
| `ContextTree.IsInvalidated` | test/spec/vivliostyle/pagefloat-spec.js:660-699 | a context is invalidated exactly when it or one of its ancestors carries the mark |
| `ContextTree.Validate` | test/spec/vivliostyle/pagefloat-spec.js:660-699 | validating clears only this context's own mark |
| `ContextTree.ValidateOthers` | test/spec/vivliostyle/pagefloat-spec.js:665-699 | validating a context does not change the answer of any context outside its subtree |
| `ContextTree.ValidateSelf` | test/spec/vivliostyle/pagefloat-spec.js:665-699 | after validation a context is invalidated exactly when its parent is |
| `Scenarios.IsInvalidatedScenario` | test/spec/vivliostyle/pagefloat-spec.js:665-699 | the suite's sequence of invalidate and validate calls on a page, region and column gives the expected answers at every step |
| `ContextOps.GetFloatFragmentExclusions` | test/spec/vivliostyle/pagefloat-spec.js:818-858 | the exclusions are exactly the outer shapes of the fragments held by the context and its ancestors |
| `Scenarios.ExclusionsScenario` | test/spec/vivliostyle/pagefloat-spec.js:819-837 | a column holding two fragments yields their two outer shapes in order |
| `Scenarios.ExclusionsFromParentScenario` | test/spec/vivliostyle/pagefloat-spec.js:839-858 | a column below a region yields the region fragment's shape first, then its own |

## Left out

- `setFloatAreaDimensions` (lines 702-815) is not modelled. It is geometry over writing modes with floating-point box sizes. The test titled "inline-end float" at lines 792-802 actually passes `"inline-start"`.
- DOM objects are opaque. Calls into them are events in the log, or parameters, as listed under "Representation".
- Jasmine spies are not modelled as objects. A spy that only records calls becomes an event. The anchor spy that `finish` consults becomes the `appeared` predicate.
- The tests spy on `removePageFloatFragment` during `finish`, which stops the real removal. The model carries out the real removal, whose effect `removePageFloatFragment`'s own tests describe.
- CSS keywords (float references, sides, writing modes, directions) are enumerations. There is no string parsing.
- A flow name is an `Option<string>`. JavaScript's treatment of `""` as "no flow name" is not modelled.
- Floats that were never registered (with a `null` id) cannot reach context operations: a `PageFloat` in the model always carries its id.
- When an operation throws, the model returns the error and drops the world. Mutations that JavaScript makes before the throw are not modelled.
- `ContextOps.RemoveThenFindFragment` requires that the owner holds the fragment and at most one fragment per float. The suite only ever removes a fragment that was added once.
- `ContextOps.RemovePageFloatFragment` leaves the owner's list alone when the owner does not hold the fragment, but still detaches the element and invalidates the owner. The suite never removes a fragment that is not held, so what JavaScript does with a missing index there is not modelled.
- Fragments and continuations are compared by value. JavaScript's `indexOf` and `includes` compare object identity. The two agree in the suite, which never builds two equal but distinct objects and asks about them.
- `ContextOps.GetFloatFragmentExclusions` states membership, not order, in its contract. The order (ancestors first) is shown for the suite's examples by `Scenarios.ExclusionsScenario` and `Scenarios.ExclusionsFromParentScenario`.
- `FinishStep.Transfer` states which continuations end up in the list and that the kept ones come first. The order of the appended ones is stated by `FinishStep.TransferInOrder` only for a carried-over list with no entry twice.
- `FinishStep.FinishTransfers` states the order of the appended continuations only when none was carried over twice. With a repeated entry the later copy is skipped, which the model computes but does not state.
- `FinishStep.Finish` states only success and that the tree is kept. Its effect is stated by `FinishStep.FinishRemovesLastUnappeared` and `FinishStep.FinishTransfers`, for contexts whose level matches all their floats.
- `ContextTree.PreviousSibling` does not model the flow-name side of sibling lookup. The suite creates every context without a flow name. In a tree where a context sits below another one with the same float reference, which the layout never builds, the search does not look inside the outer one.
- `ContextTree.PreviousSiblingIsLastPreceding` treats a context whose parent no longer lists it (the parent was invalidated after the child was created) as having no earlier siblings at that level, and goes on climbing. The suite never asks such a context for its previous sibling, and the source's own answer there is not modelled.

### Choices the suite pins down

- `finish` removes only the last fragment whose anchor has not appeared, and forbids only its float (lines 570-579: neither anchor has appeared and fragment1 stays).
- `finish` keeps in the deferred-to-next list only the continuations whose anchor has appeared, and then appends the carried-over continuations that have no fragment (lines 594-606: cont5, whose anchor has not appeared, is dropped).

### Choices the suite leaves open

- `isForbidden` consults only the context the float's reference resolves to, not that context's ancestors. In lines 172-231 every mark sits at the context of the float's own reference, so the suite cannot tell whether ancestors of that context would be consulted too.
- `ContextOps.DeferPageFloat` gives the new continuation the flow name of the context the float's reference resolves to. In lines 438-482 the region and the column both have the flow name `"foo"`, so the suite cannot tell it from the flow name of the context that was asked.
- `ContextOps.AddPageFloat` records the float in the list of the context it was added through, as well as in the shared store. The suite reads only the store's list (lines 17-53 and 139-156), never a context's own list.


=== FILE: context_ops.dfy ===
/**
 * The float-keyed operations of `PageFloatLayoutContext`. Each one resolves the float's
 * reference from `self` upward (`ContextTree.Resolve`) and acts on the context it finds;
 * an unresolvable reference is a ScopeResolution error, as the source throws.
 */
module ContextOps {
  import opened Wrappers
  import opened FloatIds
  import opened PageFloats
  import opened Seqs
  import FloatStore
  import opened ContextTree

  // ---------------------------------------------------------------- floats

  /** `addPageFloat` on a context: registers in the shared store and records the float at `self`. */
  function AddPageFloat(w: World, self: CtxId, spec: FloatSpec): (r: Result<(World, PageFloat), ErrorKind>)
    requires Wf(w.contexts) && self < |w.contexts|
    ensures r.Err? <==> FloatStore.Knows(w.store, spec.sourceNode)
    ensures r.Err? ==> r.error == DuplicateSource
    ensures r.Ok? ==>
      var (w', f) := r.value;
      && Wf(w'.contexts) && ShapeKept(w.contexts, w'.contexts) && |w'.contexts| == |w.contexts| && w'.log == w.log
      && w'.store.floats == w.store.floats + [f]
      && f.id == IdOf(|w.store.floats|) && f.sourceNode == spec.sourceNode
      && f.floatReference == spec.floatReference && f.floatSide == spec.floatSide
      && w'.contexts[self].floats == w.contexts[self].floats + [f]
      && forall i :: 0 <= i < |w.contexts| && i != self ==> w'.contexts[i] == w.contexts[i]
  {
    match FloatStore.AddPageFloat(w.store, spec)
    case Err(e) => Err(e)
    case Ok((st, f)) =>
      var me := w.contexts[self];
      Ok((Put(w.(store := st), self, me.(floats := me.floats + [f])), f))
  }

  /** `findPageFloatBySourceNode` on a context: looks in the store shared by the whole tree. */
  function FindPageFloatBySourceNode(w: World, self: CtxId, node: NodeRef): (r: Option<PageFloat>)
    requires self < |w.contexts|
    ensures r.Some? ==> r.value in w.store.floats && r.value.sourceNode == node
    ensures r.None? <==> !FloatStore.Knows(w.store, node)
  {
    FloatStore.FindPageFloatBySourceNode(w.store, node)
  }

  /** A float added through one context is found through every context of the tree. */
  lemma FloatVisibleEverywhere(w: World, self: CtxId, spec: FloatSpec, other: CtxId)
    requires Wf(w.contexts) && self < |w.contexts| && other < |w.contexts| && FloatStore.Valid(w.store)
    requires AddPageFloat(w, self, spec).Ok?
    ensures var (w', f) := AddPageFloat(w, self, spec).value;
      FindPageFloatBySourceNode(w', other, spec.sourceNode) == Some(f) && FloatStore.Valid(w'.store)
  {
    FloatStore.AddThenFind(w.store, spec);
    FloatStore.AddPreservesValid(w.store, spec);
  }

  // ---------------------------------------------------------------- forbid

  /** `forbid`: marks the float forbidden at the context of its reference. */
  function Forbid(w: World, self: CtxId, f: PageFloat): (r: Result<World, ErrorKind>)
    requires Wf(w.contexts) && self < |w.contexts|
    ensures r.Err? <==> Resolve(w.contexts, self, f.floatReference).Err?
    ensures r.Ok? ==>
      var o := Resolve(w.contexts, self, f.floatReference).value;
      && Wf(r.value.contexts) && ShapeKept(w.contexts, r.value.contexts) && |r.value.contexts| == |w.contexts|
      && r.value.store == w.store && r.value.log == w.log
      && r.value.contexts[o] == w.contexts[o].(forbidden := w.contexts[o].forbidden + {f.id})
      && forall i :: 0 <= i < |w.contexts| && i != o ==> r.value.contexts[i] == w.contexts[i]
  {
    var o :- Resolve(w.contexts, self, f.floatReference);
    var me := w.contexts[o];
    Ok(Put(w, o, me.(forbidden := me.forbidden + {f.id})))
  }

  /** `isForbidden`: whether the context of the float's reference holds a forbid mark for it. */
  function IsForbidden(w: World, self: CtxId, f: PageFloat): (r: Result<bool, ErrorKind>)
    requires Wf(w.contexts) && self < |w.contexts|
    ensures r.Err? <==> Resolve(w.contexts, self, f.floatReference).Err?
    ensures r.Ok? ==> r.value == (f.id in w.contexts[Resolve(w.contexts, self, f.floatReference).value].forbidden)
  {
    var o :- Resolve(w.contexts, self, f.floatReference);
    Ok(f.id in w.contexts[o].forbidden)
  }

  /**
   * `isForbidden` fails exactly when no context from the root down to `self` has the float's
   * reference; otherwise it answers whether the deepest such context holds the mark.
   */
  lemma IsForbiddenOnLineage(w: World, self: CtxId, f: PageFloat)
    requires Wf(w.contexts) && self < |w.contexts|
    ensures var (a, ref) := (w.contexts, Some(f.floatReference));
      && (IsForbidden(w, self, f).Err? <==> forall c :: c in Lineage(a, self) ==> a[c].floatReference != ref)
      && (IsForbidden(w, self, f).Ok? ==>
            (IsForbidden(w, self, f).value <==>
               exists c :: c in Lineage(a, self) && a[c].floatReference == ref && f.id in a[c].forbidden
                           && forall d :: d in Lineage(a, self) && c < d ==> a[d].floatReference != ref))
  {
    var a := w.contexts;
    ResolveIsNearest(a, self, f.floatReference);
    forall c | c in Lineage(a, self) && a[c].floatReference == Some(f.floatReference)
      && forall d :: d in Lineage(a, self) && c < d ==> a[d].floatReference != Some(f.floatReference)
      ensures Resolve(a, self, f.floatReference) == Ok(c)
    {
      DeepestIsResolved(a, self, f.floatReference, c);
    }
  }

  /**
   * After `forbid` from `self`, the float is forbidden when asked from any context sharing
   * `self`'s scope for it (in particular from contexts created below that scope later).
   */
  lemma ForbidThenIsForbidden(w: World, self: CtxId, f: PageFloat, d: CtxId)
    requires Wf(w.contexts) && self < |w.contexts| && d < |w.contexts|
    requires Forbid(w, self, f).Ok?
    requires Resolve(w.contexts, d, f.floatReference) == Resolve(w.contexts, self, f.floatReference)
    ensures IsForbidden(Forbid(w, self, f).value, d, f) == Ok(true)
  {
    ResolveKept(w.contexts, Forbid(w, self, f).value.contexts, d, f.floatReference);
  }

  /** `forbid` marks nothing outside its scope: asked from a context with another scope, the answer is unchanged. */
  lemma ForbidIsScoped(w: World, self: CtxId, f: PageFloat, d: CtxId)
    requires Wf(w.contexts) && self < |w.contexts| && d < |w.contexts|
    requires Forbid(w, self, f).Ok?
    requires Resolve(w.contexts, d, f.floatReference) != Resolve(w.contexts, self, f.floatReference)
    ensures IsForbidden(Forbid(w, self, f).value, d, f) == IsForbidden(w, d, f)
  {
    ResolveKept(w.contexts, Forbid(w, self, f).value.contexts, d, f.floatReference);
  }

  // ---------------------------------------------------------------- fragments

  /** The contexts an `addPageFloatFragment` from `self` passes through: `self` up to the owner `o`. */
  predicate InCascade(a: Arena, o: CtxId, c: CtxId, self: CtxId)
    requires ParentsPrecede(a) && self < |a|
  {
    c in Lineage(a, self) && o <= c
  }

  /** The record of `c` once a fragment owned by `o` has been added from `self`. */
  function AfterAdd(a: Arena, o: CtxId, self: CtxId, frag: Fragment, c: CtxId): Context
    requires ParentsPrecede(a) && self < |a| && c < |a|
  {
    var base := if c == o then a[c].(fragments := a[c].fragments + [frag]) else a[c];
    if InCascade(a, o, c, self) then Cleared(base) else base
  }

  /**
   * `addPageFloatFragment`: a context below the float's level records the call, hands the
   * fragment to its parent and invalidates itself; the context at the float's level stores it
   * and invalidates itself.
   */
  function AddPageFloatFragment(w: World, self: CtxId, frag: Fragment): (r: Result<World, ErrorKind>)
    requires Wf(w.contexts) && self < |w.contexts|
    ensures r.Err? <==> Resolve(w.contexts, self, frag.float.floatReference).Err?
    ensures r.Ok? ==>
      && Wf(r.value.contexts) && ShapeKept(w.contexts, r.value.contexts) && |r.value.contexts| == |w.contexts|
      && r.value.store == w.store && |w.log| <= |r.value.log| && r.value.log[..|w.log|] == w.log
    decreases self
  {
    var me := w.contexts[self];
    var called := w.log + [AddFragmentCalled(self, frag)];
    if me.floatReference == Some(frag.float.floatReference) then
      Ok(Invalidate(Put(w, self, me.(fragments := me.fragments + [frag])).(log := called), self))
    else
      match me.parent
      case None => Err(ScopeResolution)
      case Some(p) =>
        match AddPageFloatFragment(w, p, frag)
        case Err(e) => Err(e)
        case Ok(w2) => Ok(Invalidate(w2.(log := called + w2.log[|w.log|..]), self))
  }

  /**
   * The state after `addPageFloatFragment`: the owner gained the fragment at the end, every
   * context from `self` up to the owner is invalidated, every other context is untouched.
   */
  lemma {:induction false} AddFragmentEffect(w: World, self: CtxId, frag: Fragment)
    requires Wf(w.contexts) && self < |w.contexts|
    requires AddPageFloatFragment(w, self, frag).Ok?
    ensures var a := w.contexts;
      var a' := AddPageFloatFragment(w, self, frag).value.contexts;
      var o := Resolve(a, self, frag.float.floatReference).value;
      forall c :: 0 <= c < |a| ==> a'[c] == AfterAdd(a, o, self, frag, c)
    decreases self
  {
    var a := w.contexts;
    var a' := AddPageFloatFragment(w, self, frag).value.contexts;
    var o := Resolve(a, self, frag.float.floatReference).value;
    if a[self].floatReference == Some(frag.float.floatReference) {
      forall c | 0 <= c < |a|
        ensures a'[c] == AfterAdd(a, o, self, frag, c)
      {
        assert InCascade(a, o, c, self) <==> c == self;
      }
    } else {
      var p := a[self].parent.value;
      AddFragmentEffect(w, p, frag);
      assert Lineage(a, self) == Lineage(a, p) + [self];
      forall c | 0 <= c < |a|
        ensures a'[c] == AfterAdd(a, o, self, frag, c)
      {
        assert InCascade(a, o, c, self) <==> c == self || InCascade(a, o, c, p);
      }
    }
  }

  /** Below the owner, the cascade from `self` is `self` itself and the cascade from its parent. */
  lemma CascadeFromParent(a: Arena, o: CtxId, self: CtxId, p: CtxId)
    requires ParentsPrecede(a) && self < |a| && a[self].parent == Some(p) && o <= p
    ensures forall c :: InCascade(a, o, c, self) <==> c == self || InCascade(a, o, c, p)
  {
    assert Lineage(a, self) == Lineage(a, p) + [self];
  }

  /**
   * The calls logged when `self` is below the float's level: its own `addPageFloatFragment`,
   * those of its parent's cascade, then its own invalidation.
   */
  lemma {:induction false} HandOffLog(w: World, self: CtxId, frag: Fragment)
    requires Wf(w.contexts) && self < |w.contexts|
    requires w.contexts[self].floatReference != Some(frag.float.floatReference)
    requires AddPageFloatFragment(w, self, frag).Ok?
    ensures var p := w.contexts[self].parent.value;
      && self > 0 && p < self
      && AddPageFloatFragment(w, p, frag).Ok?
      && Resolve(w.contexts, self, frag.float.floatReference) == Resolve(w.contexts, p, frag.float.floatReference)
      && var w2 := AddPageFloatFragment(w, p, frag).value;
      && AddPageFloatFragment(w, self, frag).value.log[|w.log|..]
        == [AddFragmentCalled(self, frag)] + w2.log[|w.log|..] + InvalidationEvents(w2.contexts[self], self)
  {
    var p := w.contexts[self].parent.value;
    var w2 := AddPageFloatFragment(w, p, frag).value;
    var called := w.log + [AddFragmentCalled(self, frag)];
    var log := called + w2.log[|w.log|..];
    assert AddPageFloatFragment(w, self, frag).value == Invalidate(w2.(log := log), self);
    var rest := [AddFragmentCalled(self, frag)] + w2.log[|w.log|..] + InvalidationEvents(w2.contexts[self], self);
    SplitFirst(w.log, [AddFragmentCalled(self, frag)], w2.log[|w.log|..], InvalidationEvents(w2.contexts[self], self));
    DropPrefix(w.log, rest);
  }

  /** The calls logged when `self` is at the float's level: its own `addPageFloatFragment`, then its invalidation. */
  lemma OwnerLog(w: World, self: CtxId, frag: Fragment)
    requires Wf(w.contexts) && self < |w.contexts|
    requires w.contexts[self].floatReference == Some(frag.float.floatReference)
    ensures Resolve(w.contexts, self, frag.float.floatReference) == Ok(self)
    ensures AddPageFloatFragment(w, self, frag).Ok?
    ensures AddPageFloatFragment(w, self, frag).value.log[|w.log|..]
      == [AddFragmentCalled(self, frag)] + InvalidationEvents(w.contexts[self], self)
    ensures forall c: CtxId :: c < |w.contexts| ==> (InCascade(w.contexts, self, c, self) <==> c == self)
  {
  }

  /** `addPageFloatFragment` is called on exactly the contexts from `self` up to the owner, none above it. */
  lemma {:induction false} AddFragmentCalls(w: World, self: CtxId, frag: Fragment)
    requires Wf(w.contexts) && self < |w.contexts|
    requires AddPageFloatFragment(w, self, frag).Ok?
    ensures var a := w.contexts;
      var added := AddPageFloatFragment(w, self, frag).value.log[|w.log|..];
      var o := Resolve(a, self, frag.float.floatReference).value;
      forall c: CtxId :: AddFragmentCalled(c, frag) in added <==> c < |a| && InCascade(a, o, c, self)
    decreases self
  {
    var a := w.contexts;
    if a[self].floatReference == Some(frag.float.floatReference) {
      OwnerLog(w, self, frag);
    } else {
      HandOffLog(w, self, frag);
      var p := a[self].parent.value;
      var o := Resolve(a, self, frag.float.floatReference).value;
      AddFragmentCalls(w, p, frag);
      CascadeFromParent(a, o, self, p);
    }
  }

  /** `invalidate` is called on exactly the contexts from `self` up to the owner, none above it. */
  lemma {:induction false} InvalidateCalls(w: World, self: CtxId, frag: Fragment)
    requires Wf(w.contexts) && self < |w.contexts|
    requires AddPageFloatFragment(w, self, frag).Ok?
    ensures var a := w.contexts;
      var added := AddPageFloatFragment(w, self, frag).value.log[|w.log|..];
      var o := Resolve(a, self, frag.float.floatReference).value;
      forall c: CtxId :: InvalidateCalled(c) in added <==> c < |a| && InCascade(a, o, c, self)
    decreases self
  {
    var a := w.contexts;
    if a[self].floatReference == Some(frag.float.floatReference) {
      OwnerLog(w, self, frag);
    } else {
      HandOffLog(w, self, frag);
      var p := a[self].parent.value;
      var o := Resolve(a, self, frag.float.floatReference).value;
      InvalidateCalls(w, p, frag);
      CascadeFromParent(a, o, self, p);
    }
  }

  /** The first fragment of the float with id `id` in `frags`. */
  function FragmentOf(frags: seq<Fragment>, id: FloatId): (r: Option<Fragment>)
    ensures r.Some? ==> r.value in frags && r.value.float.id == id
    ensures r.None? <==> forall fr :: fr in frags ==> fr.float.id != id
  {
    if frags == [] then None
    else if frags[0].float.id == id then Some(frags[0])
    else FragmentOf(frags[1..], id)
  }

  lemma {:induction false} FragmentOfAppended(frags: seq<Fragment>, frag: Fragment)
    requires FragmentOf(frags, frag.float.id).None?
    ensures FragmentOf(frags + [frag], frag.float.id) == Some(frag)
  {
    if frags != [] {
      assert (frags + [frag])[1..] == frags[1..] + [frag];
      FragmentOfAppended(frags[1..], frag);
    }
  }

  /** `findPageFloatFragment`: the fragment of `f` stored at the context of its reference, or null. */
  function FindPageFloatFragment(w: World, self: CtxId, f: PageFloat): (r: Result<Option<Fragment>, ErrorKind>)
    requires Wf(w.contexts) && self < |w.contexts|
    ensures r.Err? <==> Resolve(w.contexts, self, f.floatReference).Err?
    ensures r.Ok? ==>
      var owner := w.contexts[Resolve(w.contexts, self, f.floatReference).value];
      && (r.value.Some? ==> r.value.value in owner.fragments && r.value.value.float.id == f.id)
      && (r.value.None? <==> forall fr :: fr in owner.fragments ==> fr.float.id != f.id)
  {
    var o :- Resolve(w.contexts, self, f.floatReference);
    Ok(FragmentOf(w.contexts[o].fragments, f.id))
  }

  /**
   * A fragment added from `self` is found from every context that resolves the float's reference
   * to the same owner, and throws from every context that cannot resolve it.
   */
  lemma {:induction false} AddThenFindFragment(w: World, self: CtxId, frag: Fragment, d: CtxId)
    requires Wf(w.contexts) && self < |w.contexts| && d < |w.contexts|
    requires AddPageFloatFragment(w, self, frag).Ok?
    requires FindPageFloatFragment(w, self, frag.float) == Ok(None)
    ensures var w' := AddPageFloatFragment(w, self, frag).value;
      && (Resolve(w.contexts, d, frag.float.floatReference) == Resolve(w.contexts, self, frag.float.floatReference) ==>
            FindPageFloatFragment(w', d, frag.float) == Ok(Some(frag)))
      && (Resolve(w.contexts, d, frag.float.floatReference).Err? ==> FindPageFloatFragment(w', d, frag.float).Err?)
  {
    var w' := AddPageFloatFragment(w, self, frag).value;
    var o := Resolve(w.contexts, self, frag.float.floatReference).value;
    AddFragmentEffect(w, self, frag);
    ResolveKept(w.contexts, w'.contexts, d, frag.float.floatReference);
    assert w'.contexts[o] == AfterAdd(w.contexts, o, self, frag, o);
    FragmentOfAppended(w.contexts[o].fragments, frag);
  }

  /** No two fragments of a list place the same float. */
  predicate FragmentsUnique(frags: seq<Fragment>) {
    forall i, j :: 0 <= i < j < |frags| ==> frags[i].float.id != frags[j].float.id
  }

  /**
   * `removePageFloatFragment`: drops the fragment from its owner, detaches the area's element
   * from its parent node and invalidates the owner.
   */
  function RemovePageFloatFragment(w: World, self: CtxId, frag: Fragment): (r: Result<World, ErrorKind>)
    requires Wf(w.contexts) && self < |w.contexts|
    ensures r.Err? <==> Resolve(w.contexts, self, frag.float.floatReference).Err?
    ensures r.Ok? ==>
      var o := Resolve(w.contexts, self, frag.float.floatReference).value;
      var w' := r.value;
      && Wf(w'.contexts) && ShapeKept(w.contexts, w'.contexts) && |w'.contexts| == |w.contexts| && w'.store == w.store
      && multiset(w'.contexts[o].fragments) == multiset(w.contexts[o].fragments) - multiset{frag}
      && (var frags := w.contexts[o].fragments; var i := IndexOf(frags, frag);
          w'.contexts[o].fragments == if i < |frags| then frags[..i] + frags[i + 1..] else frags)
      && w'.contexts[o] == Cleared(w.contexts[o]).(fragments := w'.contexts[o].fragments)
      && (forall i :: 0 <= i < |w.contexts| && i != o ==> w'.contexts[i] == w.contexts[i])
      && w'.log == w.log + [ElementDetached(frag.area.element)] + InvalidationEvents(w.contexts[o], o)
  {
    var o :- Resolve(w.contexts, self, frag.float.floatReference);
    var me := w.contexts[o];
    var w1 := Put(w, o, me.(fragments := RemoveFirst(me.fragments, frag)));
    Ok(Invalidate(w1.(log := w.log + [ElementDetached(frag.area.element)]), o))
  }

  /** Taking one copy of `frag` out of a list with one fragment per float leaves no fragment of its float. */
  lemma RemoveUniqueLeavesNone(before: seq<Fragment>, after: seq<Fragment>, frag: Fragment)
    requires frag in before && FragmentsUnique(before)
    requires multiset(after) == multiset(before) - multiset{frag}
    ensures forall fr :: fr in after ==> fr.float.id != frag.float.id
  {
    var i := IndexOf(before, frag);
    assert before == before[..i] + [frag] + before[i + 1..];
    assert frag !in before[i + 1..];
    assert multiset(before)[frag] == 1;
    forall fr | fr in after
      ensures fr.float.id != frag.float.id
    {
      assert fr in multiset(after);
      assert fr in before;
    }
  }

  /** Once its only fragment is removed, a float has no fragment at its owner any more. */
  lemma RemoveThenFindFragment(w: World, self: CtxId, frag: Fragment, d: CtxId)
    requires Wf(w.contexts) && self < |w.contexts| && d < |w.contexts|
    requires RemovePageFloatFragment(w, self, frag).Ok?
    requires var owner := w.contexts[Resolve(w.contexts, self, frag.float.floatReference).value];
      frag in owner.fragments && FragmentsUnique(owner.fragments)
    requires Resolve(w.contexts, d, frag.float.floatReference) == Resolve(w.contexts, self, frag.float.floatReference)
    ensures FindPageFloatFragment(RemovePageFloatFragment(w, self, frag).value, d, frag.float) == Ok(None)
  {
    var w' := RemovePageFloatFragment(w, self, frag).value;
    var o := Resolve(w.contexts, self, frag.float.floatReference).value;
    ResolveKept(w.contexts, w'.contexts, d, frag.float.floatReference);
    RemoveUniqueLeavesNone(w.contexts[o].fragments, w'.contexts[o].fragments, frag);
  }

  // ---------------------------------------------------------------- anchors

  /** `registerPageFloatAnchor`: stores the anchor view node at the context of the float's reference. */
  function RegisterPageFloatAnchor(w: World, self: CtxId, f: PageFloat, anchor: ViewNode): (r: Result<World, ErrorKind>)
    requires Wf(w.contexts) && self < |w.contexts|
    ensures r.Err? <==> Resolve(w.contexts, self, f.floatReference).Err?
    ensures r.Ok? ==>
      var o := Resolve(w.contexts, self, f.floatReference).value;
      && Wf(r.value.contexts) && ShapeKept(w.contexts, r.value.contexts) && |r.value.contexts| == |w.contexts|
      && r.value.store == w.store && r.value.log == w.log
      && r.value.contexts[o] == w.contexts[o].(anchors := w.contexts[o].anchors[f.id := anchor])
      && forall i :: 0 <= i < |w.contexts| && i != o ==> r.value.contexts[i] == w.contexts[i]
  {
    var o :- Resolve(w.contexts, self, f.floatReference);
    var me := w.contexts[o];
    Ok(Put(w, o, me.(anchors := me.anchors[f.id := anchor])))
  }

  /** Some continuation in `conts` is one of the float with id `id`. */
  predicate HasContinuationOf(conts: seq<Continuation>, id: FloatId) {
    exists c :: c in conts && c.float.id == id
  }

  /**
   * `isAnchorAlreadyAppeared`: `contained` is the set of view nodes inside `self`'s container
   * element. True when the anchor registered at `self` is inside it, or when the float was
   * carried over from a previous fragmentainer.
   */
  function IsAnchorAlreadyAppeared(w: World, self: CtxId, id: FloatId, contained: set<ViewNode>): (b: bool)
    requires self < |w.contexts|
    ensures HasContinuationOf(w.contexts[self].deferredFromPrevious, id) ==> b
    ensures !HasContinuationOf(w.contexts[self].deferredFromPrevious, id) ==>
      (b <==> id in w.contexts[self].anchors && w.contexts[self].anchors[id] in contained)
  {
    var me := w.contexts[self];
    (id in me.anchors && me.anchors[id] in contained) || HasContinuationOf(me.deferredFromPrevious, id)
  }

  /** A context just created has no anchor registered and nothing carried over, so no float has appeared there. */
  lemma NewContextNoneAppeared(w: World, parent: CtxId, ref: FloatReference, container: Option<ContainerRef>,
                               flowName: Option<string>, writingMode: Option<WritingMode>, direction: Option<TextDirection>,
                               id: FloatId, contained: set<ViewNode>)
    requires Wf(w.contexts) && parent < |w.contexts|
    ensures var (w', c) := NewContext(w, parent, ref, container, flowName, writingMode, direction);
      !IsAnchorAlreadyAppeared(w', c, id, contained)
  {
  }

  /** Adding a float through any context changes no context's answer to `isAnchorAlreadyAppeared`. */
  lemma AddPageFloatKeepsAppeared(w: World, self: CtxId, spec: FloatSpec, c: CtxId, id: FloatId, contained: set<ViewNode>)
    requires Wf(w.contexts) && self < |w.contexts| && c < |w.contexts|
    requires AddPageFloat(w, self, spec).Ok?
    ensures IsAnchorAlreadyAppeared(AddPageFloat(w, self, spec).value.0, c, id, contained)
      == IsAnchorAlreadyAppeared(w, c, id, contained)
  {
  }

  /** Registering an anchor at its owner makes the float appear exactly when the node is in the container (or it was carried over). */
  lemma RegisterThenAppeared(w: World, self: CtxId, f: PageFloat, anchor: ViewNode, contained: set<ViewNode>)
    requires Wf(w.contexts) && self < |w.contexts|
    requires RegisterPageFloatAnchor(w, self, f, anchor).Ok?
    ensures var o := Resolve(w.contexts, self, f.floatReference).value;
      IsAnchorAlreadyAppeared(RegisterPageFloatAnchor(w, self, f, anchor).value, o, f.id, contained) <==>
        anchor in contained || HasContinuationOf(w.contexts[o].deferredFromPrevious, f.id)
  {
  }

  /** Registering an anchor from `self` leaves the anchor maps of every other context alone. */
  lemma RegisterOnlyAtOwner(w: World, self: CtxId, f: PageFloat, anchor: ViewNode, c: CtxId)
    requires Wf(w.contexts) && self < |w.contexts| && c < |w.contexts|
    requires RegisterPageFloatAnchor(w, self, f, anchor).Ok?
    requires f.id !in w.contexts[c].anchors
    ensures var w' := RegisterPageFloatAnchor(w, self, f, anchor).value;
      f.id in w'.contexts[c].anchors <==> Resolve(w.contexts, self, f.floatReference) == Ok(c)
  {
  }

  /** After `invalidate`, only a carried-over float counts as appeared. */
  lemma InvalidateForgetsAnchors(w: World, self: CtxId, id: FloatId, contained: set<ViewNode>)
    requires Wf(w.contexts) && self < |w.contexts|
    ensures IsAnchorAlreadyAppeared(Invalidate(w, self), self, id, contained)
      <==> HasContinuationOf(w.contexts[self].deferredFromPrevious, id)
  {
  }

  // ---------------------------------------------------------------- deferral

  /** Position of the first continuation of the float with id `id`, or `|conts|`. */
  function ContinuationIndex(conts: seq<Continuation>, id: FloatId): (i: nat)
    ensures i <= |conts|
    ensures i < |conts| ==> conts[i].float.id == id
    ensures forall j :: 0 <= j < i ==> conts[j].float.id != id
  {
    if conts == [] then 0
    else if conts[0].float.id == id then 0
    else 1 + ContinuationIndex(conts[1..], id)
  }

  /** With no continuation of the float before it, an appended one is found at the end. */
  lemma {:induction false} ContinuationIndexAppended(conts: seq<Continuation>, c: Continuation)
    requires !HasContinuationOf(conts, c.float.id)
    ensures ContinuationIndex(conts + [c], c.float.id) == |conts|
  {
    if conts != [] {
      assert (conts + [c])[1..] == conts[1..] + [c];
      assert conts[0] in conts;
      ContinuationIndexAppended(conts[1..], c);
    }
  }

  /** At most one continuation per float. */
  predicate AtMostOnePerFloat(conts: seq<Continuation>) {
    forall i, j :: 0 <= i < j < |conts| ==> conts[i].float.id != conts[j].float.id
  }

  /** Replaces the continuation of the same float in place, or appends `c` when there is none. */
  function ReplaceOrAppend(conts: seq<Continuation>, c: Continuation): (r: seq<Continuation>)
    ensures c in r
    ensures |r| == |conts| || |r| == |conts| + 1
    ensures |r| == |conts| + 1 <==> !HasContinuationOf(conts, c.float.id)
    ensures forall j :: 0 <= j < |conts| && conts[j].float.id != c.float.id ==> r[j] == conts[j]
    ensures AtMostOnePerFloat(conts) ==> AtMostOnePerFloat(r)
    ensures AtMostOnePerFloat(conts) ==> forall x :: x in r && x.float.id == c.float.id ==> x == c
  {
    var i := ContinuationIndex(conts, c.float.id);
    if i < |conts| then
      assert conts[i := c][i] == c;
      conts[i := c]
    else conts + [c]
  }

  /**
   * `deferPageFloat`: a continuation carrying the owner's flow name and `position` goes into the
   * owner's deferred-to-next list, replacing an earlier one of the same float.
   */
  function DeferPageFloat(w: World, self: CtxId, f: PageFloat, position: NodePosition): (r: Result<World, ErrorKind>)
    requires Wf(w.contexts) && self < |w.contexts|
    ensures r.Err? <==> Resolve(w.contexts, self, f.floatReference).Err?
    ensures r.Ok? ==>
      var o := Resolve(w.contexts, self, f.floatReference).value;
      var owner := w.contexts[o];
      var c := Continuation(f, position, owner.flowName);
      && Wf(r.value.contexts) && ShapeKept(w.contexts, r.value.contexts) && |r.value.contexts| == |w.contexts|
      && r.value.store == w.store && r.value.log == w.log
      && r.value.contexts[o] == owner.(deferredToNext := ReplaceOrAppend(owner.deferredToNext, c))
      && forall i :: 0 <= i < |w.contexts| && i != o ==> r.value.contexts[i] == w.contexts[i]
  {
    var o :- Resolve(w.contexts, self, f.floatReference);
    var owner := w.contexts[o];
    Ok(Put(w, o, owner.(deferredToNext := ReplaceOrAppend(owner.deferredToNext, Continuation(f, position, owner.flowName)))))
  }

  /** Deferring the same float twice keeps one continuation, with the second position. */
  lemma DeferTwiceReplaces(w: World, self: CtxId, f: PageFloat, p1: NodePosition, p2: NodePosition)
    requires Wf(w.contexts) && self < |w.contexts|
    requires DeferPageFloat(w, self, f, p1).Ok?
    requires var o := Resolve(w.contexts, self, f.floatReference).value;
      !HasContinuationOf(w.contexts[o].deferredToNext, f.id)
    ensures var w1 := DeferPageFloat(w, self, f, p1).value;
      var o := Resolve(w.contexts, self, f.floatReference).value;
      && DeferPageFloat(w1, self, f, p2).Ok?
      && DeferPageFloat(w1, self, f, p2).value.contexts[o].deferredToNext
           == w.contexts[o].deferredToNext + [Continuation(f, p2, w.contexts[o].flowName)]
  {
    var w1 := DeferPageFloat(w, self, f, p1).value;
    var o := Resolve(w.contexts, self, f.floatReference).value;
    ResolveKept(w.contexts, w1.contexts, self, f.floatReference);
    var before := w.contexts[o].deferredToNext;
    var mid := w1.contexts[o].deferredToNext;
    assert mid == before + [Continuation(f, p1, w.contexts[o].flowName)];
    ContinuationIndexAppended(before, Continuation(f, p1, w.contexts[o].flowName));
  }

  // ---------------------------------------------------------------- continuation getters

  /** Which continuation list a getter reads. */
  datatype Deferral = FromPrevious | ToNext

  function ListOf(c: Context, which: Deferral): seq<Continuation> {
    match which
    case FromPrevious => c.deferredFromPrevious
    case ToNext => c.deferredToNext
  }

  /** A continuation passes the flow filter; no filter lets everything pass. */
  predicate FlowMatches(c: Continuation, flow: Option<string>) {
    flow.None? || c.flowName == flow
  }

  /** The continuations of `conts` that pass the flow filter, in order. */
  function FilterFlow(conts: seq<Continuation>, flow: Option<string>): (r: seq<Continuation>)
    ensures flow.None? ==> r == conts
    ensures |r| <= |conts|
    ensures forall x :: x in r <==> x in conts && FlowMatches(x, flow)
  {
    if conts == [] then []
    else (if FlowMatches(conts[0], flow) then [conts[0]] else []) + FilterFlow(conts[1..], flow)
  }

  /** Filtering distributes over concatenation, so the filter keeps the entries in their order. */
  lemma {:induction false} FilterFlowAppend(s: seq<Continuation>, t: seq<Continuation>, flow: Option<string>)
    ensures FilterFlow(s + t, flow) == FilterFlow(s, flow) + FilterFlow(t, flow)
    decreases |s|
  {
    if s == [] {
      assert s + t == t;
    } else {
      assert (s + t)[0] == s[0] && (s + t)[1..] == s[1..] + t;
      FilterFlowAppend(s[1..], t, flow);
    }
  }

  /** The filtered lists of the contexts on `path`, concatenated in path order. */
  function Along(a: Arena, path: seq<CtxId>, flow: Option<string>, which: Deferral): seq<Continuation>
    requires forall k :: 0 <= k < |path| ==> path[k] < |a|
  {
    if path == [] then []
    else Along(a, path[..|path| - 1], flow, which) + FilterFlow(ListOf(a[path[|path| - 1]], which), flow)
  }

  /** The filtered lists from the root down to `id`, concatenated root first. */
  function Collect(a: Arena, id: CtxId, flow: Option<string>, which: Deferral): seq<Continuation>
    requires ParentsPrecede(a) && id < |a|
    decreases id
  {
    var own := FilterFlow(ListOf(a[id], which), flow);
    match a[id].parent
    case None => own
    case Some(p) => Collect(a, p, flow, which) + own
  }

  /** A continuation is collected exactly when it passes the filter and is listed by a context of the lineage. */
  lemma {:induction false} CollectMembers(a: Arena, id: CtxId, flow: Option<string>, which: Deferral)
    requires ParentsPrecede(a) && id < |a|
    ensures forall x :: x in Collect(a, id, flow, which) <==>
      FlowMatches(x, flow) && exists c :: c in Lineage(a, id) && x in ListOf(a[c], which)
    decreases id
  {
    match a[id].parent
    case None =>
    case Some(p) =>
      CollectMembers(a, p, flow, which);
      assert Lineage(a, id) == Lineage(a, p) + [id];
  }

  /** The getters list the page's entries first, then the region's, then the column's: lineage order. */
  lemma {:induction false} CollectFollowsLineage(a: Arena, id: CtxId, flow: Option<string>, which: Deferral)
    requires ParentsPrecede(a) && id < |a|
    ensures Collect(a, id, flow, which) == Along(a, Lineage(a, id), flow, which)
    decreases id
  {
    match a[id].parent
    case None =>
    case Some(p) =>
      CollectFollowsLineage(a, p, flow, which);
      var path := Lineage(a, id);
      assert path[..|path| - 1] == Lineage(a, p);
  }

  /** The filter a getter uses: its argument, else `self`'s flow name, else none. */
  function EffectiveFlow(arg: Option<string>, own: Option<string>): (flow: Option<string>)
    ensures flow.None? <==> arg.None? && own.None?
    ensures arg.Some? ==> flow == arg
    ensures arg.None? ==> flow == own
  {
    if arg.Some? then arg else own
  }

  /** `getDeferredPageFloatContinuations`: the carried-over continuations from the root down to `self`, filtered by flow name. */
  function GetDeferredPageFloatContinuations(a: Arena, self: CtxId, flowName: Option<string>): (r: seq<Continuation>)
    requires Wf(a) && self < |a|
    ensures var flow := EffectiveFlow(flowName, a[self].flowName);
      forall x :: x in r <==> FlowMatches(x, flow) && exists c :: c in Lineage(a, self) && x in a[c].deferredFromPrevious
    ensures r == Along(a, Lineage(a, self), EffectiveFlow(flowName, a[self].flowName), FromPrevious)
  {
    CollectMembers(a, self, EffectiveFlow(flowName, a[self].flowName), FromPrevious);
    CollectFollowsLineage(a, self, EffectiveFlow(flowName, a[self].flowName), FromPrevious);
    Collect(a, self, EffectiveFlow(flowName, a[self].flowName), FromPrevious)
  }

  /** `getPageFloatContinuationsDeferredToNext`: the deferred-to-next continuations from the root down to `self`, filtered by flow name. */
  function GetPageFloatContinuationsDeferredToNext(a: Arena, self: CtxId, flowName: Option<string>): (r: seq<Continuation>)
    requires Wf(a) && self < |a|
    ensures var flow := EffectiveFlow(flowName, a[self].flowName);
      forall x :: x in r <==> FlowMatches(x, flow) && exists c :: c in Lineage(a, self) && x in a[c].deferredToNext
    ensures r == Along(a, Lineage(a, self), EffectiveFlow(flowName, a[self].flowName), ToNext)
  {
    CollectMembers(a, self, EffectiveFlow(flowName, a[self].flowName), ToNext);
    CollectFollowsLineage(a, self, EffectiveFlow(flowName, a[self].flowName), ToNext);
    Collect(a, self, EffectiveFlow(flowName, a[self].flowName), ToNext)
  }

  // ---------------------------------------------------------------- exclusions

  /** An opaque exclusion shape. */
  type Shape = nat

  /** `getFloatFragmentExclusions`: the outer shapes of the fragments from the root down to `self`. */
  function GetFloatFragmentExclusions(a: Arena, self: CtxId, outerShape: Area -> Shape): (r: seq<Shape>)
    requires ParentsPrecede(a) && self < |a|
    ensures forall s :: s in r <==> exists c, fr :: c in Lineage(a, self) && fr in a[c].fragments && s == outerShape(fr.area)
    decreases self
  {
    var frags := a[self].fragments;
    var own := seq(|frags|, i requires 0 <= i < |frags| => outerShape(frags[i].area));
    assert forall s :: s in own <==> exists fr :: fr in frags && s == outerShape(fr.area) by {
      forall s | s in own ensures exists fr :: fr in frags && s == outerShape(fr.area) {
        var i :| 0 <= i < |own| && own[i] == s;
        assert frags[i] in frags;
      }
      forall s | (exists fr :: fr in frags && s == outerShape(fr.area)) ensures s in own {
        var fr :| fr in frags && s == outerShape(fr.area);
        var i :| 0 <= i < |frags| && frags[i] == fr;
        assert own[i] == s;
      }
    }
    match a[self].parent
    case None => own
    case Some(p) => GetFloatFragmentExclusions(a, p, outerShape) + own
  }
}

=== FILE: context_tree.dfy ===
/**
 * The tree of `PageFloatLayoutContext`s, kept as an arena: a context's id is its index in the
 * arena, parent and child links are ids. The root (id 0) has no float reference; the contexts
 * created below it carry PAGE, REGION or COLUMN.
 */
module ContextTree {
  import opened Wrappers
  import opened FloatIds
  import opened PageFloats
  import opened Seqs
  import FloatStore

  type CtxId = nat

  /** Writing-mode and direction idents, taken as opaque values. */
  datatype WritingMode = HorizontalTb | VerticalRl | VerticalLr
  datatype TextDirection = Ltr | Rtl

  /** Calls into collaborators and spied calls, in the order they happen. */
  datatype Event =
    | AddFragmentCalled(context: CtxId, fragment: Fragment)
    | InvalidateCalled(context: CtxId)
    | ContainerCleared(container: ContainerRef)
    | ElementDetached(element: ElementRef)

  datatype Context = Context(
    parent: Option<CtxId>,
    children: seq<CtxId>,
    floatReference: Option<FloatReference>,
    container: Option<ContainerRef>,
    flowName: Option<string>,
    writingMode: Option<WritingMode>,
    direction: Option<TextDirection>,
    floats: seq<PageFloat>,
    fragments: seq<Fragment>,
    forbidden: set<FloatId>,
    anchors: map<FloatId, ViewNode>,
    deferredFromPrevious: seq<Continuation>,
    deferredToNext: seq<Continuation>,
    invalidated: bool)

  /** Every context ever created; a context's id is its index. */
  type Arena = seq<Context>

  /** The shared float store, the arena of contexts, and the log of collaborator calls. */
  datatype World = World(store: FloatStore.Store, contexts: Arena, log: seq<Event>)

  /** A parent is always created before its children. */
  predicate ParentsPrecede(a: Arena) {
    forall i :: 0 <= i < |a| && a[i].parent.Some? ==> a[i].parent.value < i
  }

  /** Every listed child exists, was created after its parent, and points back to it. */
  predicate ChildrenLinked(a: Arena) {
    forall i, k :: 0 <= i < |a| && 0 <= k < |a[i].children| ==>
      i < a[i].children[k] < |a| && a[a[i].children[k]].parent == Some(i)
  }

  /** Well-formed arena: a single root at id 0 without float reference. */
  predicate Wf(a: Arena) {
    && |a| > 0
    && a[0].parent.None?
    && a[0].floatReference.None?
    && (forall i :: 0 < i < |a| ==> a[i].parent.Some?)
    && ParentsPrecede(a)
    && ChildrenLinked(a)
  }

  /** `a'` keeps every context of `a` at the same place, with the same parent and float reference. */
  predicate ShapeKept(a: Arena, a': Arena) {
    && |a| <= |a'|
    && forall i :: 0 <= i < |a| ==> a'[i].parent == a[i].parent && a'[i].floatReference == a[i].floatReference
  }

  /** `x` and `y` have the same place in the tree. */
  predicate SameLinks(x: Context, y: Context) {
    x.parent == y.parent && x.children == y.children && x.floatReference == y.floatReference
  }

  function EmptyContext(parent: Option<CtxId>, floatReference: Option<FloatReference>, container: Option<ContainerRef>,
                        flowName: Option<string>, writingMode: Option<WritingMode>, direction: Option<TextDirection>): Context
  {
    Context(parent, [], floatReference, container, flowName, writingMode, direction, [], [], {}, map[], [], [], false)
  }

  /** A world holding just the root context `new PageFloatLayoutContext(null, null, ...)`. */
  function Init(): (w: World)
    ensures Wf(w.contexts) && |w.contexts| == 1 && FloatStore.Valid(w.store) && w.log == []
  {
    World(FloatStore.Empty(), [EmptyContext(None, None, None, None, None, None)], [])
  }

  /** Replaces the record of `id`; a replacement with the same links keeps the arena well formed. */
  function Put(w: World, id: CtxId, c: Context): (w': World)
    requires id < |w.contexts|
    ensures |w'.contexts| == |w.contexts| && w'.contexts[id] == c
    ensures forall i :: 0 <= i < |w.contexts| && i != id ==> w'.contexts[i] == w.contexts[i]
    ensures w'.store == w.store && w'.log == w.log
    ensures SameLinks(c, w.contexts[id]) ==> ShapeKept(w.contexts, w'.contexts) && (Wf(w.contexts) ==> Wf(w'.contexts))
  {
    var a' := w.contexts[id := c];
    assert SameLinks(c, w.contexts[id]) && Wf(w.contexts) ==> ChildrenLinked(a') by {
      if SameLinks(c, w.contexts[id]) && Wf(w.contexts) {
        forall i, k | 0 <= i < |a'| && 0 <= k < |a'[i].children|
          ensures i < a'[i].children[k] < |a'| && a'[a'[i].children[k]].parent == Some(i)
        {
          assert a'[i].children == w.contexts[i].children;
        }
      }
    }
    w.(contexts := a')
  }

  /**
   * The constructor: a new context below `parent`, appended to the parent's children.
   * A writing mode or direction that is not given is taken from the parent.
   */
  function NewContext(w: World, parent: CtxId, floatReference: FloatReference, container: Option<ContainerRef>,
                      flowName: Option<string>, writingMode: Option<WritingMode>, direction: Option<TextDirection>): (r: (World, CtxId))
    requires Wf(w.contexts) && parent < |w.contexts|
    ensures var (w', id) := r;
      && Wf(w'.contexts) && ShapeKept(w.contexts, w'.contexts)
      && id == |w.contexts| && |w'.contexts| == id + 1
      && w'.contexts[parent].children == w.contexts[parent].children + [id]
      && w'.contexts[id].parent == Some(parent) && w'.contexts[id].children == []
      && w'.contexts[id].floatReference == Some(floatReference)
      && w'.contexts[id].container == container && w'.contexts[id].flowName == flowName
      && w'.contexts[id].writingMode == (if writingMode.Some? then writingMode else w.contexts[parent].writingMode)
      && w'.contexts[id].direction == (if direction.Some? then direction else w.contexts[parent].direction)
      && w'.contexts[id].fragments == [] && w'.contexts[id].forbidden == {} && w'.contexts[id].anchors == map[]
      && w'.contexts[id].deferredFromPrevious == [] && w'.contexts[id].deferredToNext == []
      && !w'.contexts[id].invalidated
      && (forall i :: 0 <= i < |w.contexts| && i != parent ==> w'.contexts[i] == w.contexts[i])
      && w'.contexts[parent] == w.contexts[parent].(children := w'.contexts[parent].children)
      && w'.store == w.store && w'.log == w.log
  {
    var p := w.contexts[parent];
    var id := |w.contexts|;
    var c := EmptyContext(Some(parent), Some(floatReference), container, flowName,
                          if writingMode.Some? then writingMode else p.writingMode,
                          if direction.Some? then direction else p.direction);
    var a' := w.contexts[parent := p.(children := p.children + [id])] + [c];
    assert ChildrenLinked(a') by {
      forall i, k | 0 <= i < |a'| && 0 <= k < |a'[i].children|
        ensures i < a'[i].children[k] < |a'| && a'[a'[i].children[k]].parent == Some(i)
      {
        if i == parent && k == |p.children| {
        } else {
          assert a'[i].children[k] == w.contexts[i].children[k];
        }
      }
    }
    (w.(contexts := a'), id)
  }

  /** The ids from the root down to `id`, both included. */
  function Lineage(a: Arena, id: CtxId): (path: seq<CtxId>)
    requires ParentsPrecede(a) && id < |a|
    ensures |path| > 0 && path[|path| - 1] == id
    ensures forall k :: 0 <= k < |path| ==> path[k] <= id
    decreases id
  {
    match a[id].parent
    case None => [id]
    case Some(p) => Lineage(a, p) + [id]
  }

  /** A lineage starts at a root, goes down one parent link at a time, and its ids increase. */
  lemma {:induction false} LineageShape(a: Arena, id: CtxId)
    requires ParentsPrecede(a) && id < |a|
    ensures var path := Lineage(a, id);
      && a[path[0]].parent.None?
      && (forall k :: 0 < k < |path| ==> a[path[k]].parent == Some(path[k - 1]))
      && (forall j, k :: 0 <= j < k < |path| ==> path[j] < path[k])
    decreases id
  {
    match a[id].parent
    case None =>
    case Some(p) => LineageShape(a, p);
  }

  /** Lineages only depend on parent links, which no operation changes. */
  lemma {:induction false} LineageKept(a: Arena, a': Arena, id: CtxId)
    requires ParentsPrecede(a) && ParentsPrecede(a') && ShapeKept(a, a') && id < |a|
    ensures Lineage(a', id) == Lineage(a, id)
    decreases id
  {
    match a[id].parent
    case None =>
    case Some(p) => LineageKept(a, a', p);
  }

  /** Every context of a well-formed arena descends from the root. */
  lemma RootStartsLineage(a: Arena, id: CtxId)
    requires Wf(a) && id < |a|
    ensures Lineage(a, id)[0] == 0
  {
    LineageShape(a, id);
  }

  /**
   * Scope resolution: the nearest context, `self` included, whose float reference is `ref`;
   * a ScopeResolution error when there is none.
   */
  function Resolve(a: Arena, self: CtxId, ref: FloatReference): (r: Result<CtxId, ErrorKind>)
    requires ParentsPrecede(a) && self < |a|
    ensures r.Err? ==> r.error == ScopeResolution
    ensures r.Ok? ==> r.value <= self && a[r.value].floatReference == Some(ref)
    decreases self
  {
    if a[self].floatReference == Some(ref) then Ok(self)
    else
      match a[self].parent
      case None => Err(ScopeResolution)
      case Some(p) => Resolve(a, p, ref)
  }

  /**
   * Resolution finds the nearest context of the lineage with the reference, and fails exactly
   * when no context of the lineage has it.
   */
  lemma {:induction false} ResolveIsNearest(a: Arena, self: CtxId, ref: FloatReference)
    requires ParentsPrecede(a) && self < |a|
    ensures var r := Resolve(a, self, ref);
      && (r.Err? <==> forall c :: c in Lineage(a, self) ==> a[c].floatReference != Some(ref))
      && (r.Ok? ==> r.value in Lineage(a, self)
                    && forall c :: c in Lineage(a, self) && r.value < c ==> a[c].floatReference != Some(ref))
    decreases self
  {
    match a[self].parent
    case None =>
    case Some(p) =>
      ResolveIsNearest(a, p, ref);
      assert Lineage(a, self) == Lineage(a, p) + [self];
  }

  /** The deepest context of the lineage with the reference is the one resolution finds. */
  lemma DeepestIsResolved(a: Arena, self: CtxId, ref: FloatReference, c: CtxId)
    requires ParentsPrecede(a) && self < |a|
    requires c in Lineage(a, self) && a[c].floatReference == Some(ref)
    requires forall d :: d in Lineage(a, self) && c < d ==> a[d].floatReference != Some(ref)
    ensures Resolve(a, self, ref) == Ok(c)
  {
    ResolveIsNearest(a, self, ref);
  }

  /** Resolution only depends on parent links and float references. */
  lemma {:induction false} ResolveKept(a: Arena, a': Arena, self: CtxId, ref: FloatReference)
    requires ParentsPrecede(a) && ParentsPrecede(a') && ShapeKept(a, a') && self < |a|
    ensures Resolve(a', self, ref) == Resolve(a, self, ref)
    decreases self
  {
    match a[self].parent
    case None =>
    case Some(p) => ResolveKept(a, a', p, ref);
  }

  /** A context created below `parent` sees the same scope as `parent` for any other reference. */
  lemma ResolveFromNewChild(w: World, parent: CtxId, childRef: FloatReference, container: Option<ContainerRef>,
                            flowName: Option<string>, writingMode: Option<WritingMode>, direction: Option<TextDirection>,
                            ref: FloatReference)
    requires Wf(w.contexts) && parent < |w.contexts| && childRef != ref
    ensures var (w', id) := NewContext(w, parent, childRef, container, flowName, writingMode, direction);
      Resolve(w'.contexts, id, ref) == Resolve(w.contexts, parent, ref)
  {
    var (w', id) := NewContext(w, parent, childRef, container, flowName, writingMode, direction);
    ResolveKept(w.contexts, w'.contexts, parent, ref);
  }

  /** `isInvalidated`: `self` or one of its ancestors is invalidated. */
  function IsInvalidated(a: Arena, self: CtxId): (b: bool)
    requires ParentsPrecede(a) && self < |a|
    ensures b <==> exists c :: c in Lineage(a, self) && a[c].invalidated
    decreases self
  {
    a[self].invalidated ||
      match a[self].parent
      case None => false
      case Some(p) => IsInvalidated(a, p)
  }

  /** What `invalidate` leaves of a context: the flag set, no anchors, no children. */
  function Cleared(c: Context): Context {
    c.(invalidated := true, anchors := map[], children := [])
  }

  /** The calls `invalidate` on `id` makes: the spied call itself and, with a container, `container.clear()`. */
  function InvalidationEvents(c: Context, id: CtxId): seq<Event> {
    [InvalidateCalled(id)] + (if c.container.Some? then [ContainerCleared(c.container.value)] else [])
  }

  /** `invalidate`: marks `id` invalid, clears its container, anchor map and children. */
  function Invalidate(w: World, id: CtxId): (w': World)
    requires id < |w.contexts|
    ensures |w'.contexts| == |w.contexts| && w'.store == w.store
    ensures w'.contexts[id].invalidated && w'.contexts[id].anchors == map[] && w'.contexts[id].children == []
    ensures w'.contexts[id] == Cleared(w.contexts[id])
    ensures forall i :: 0 <= i < |w.contexts| && i != id ==> w'.contexts[i] == w.contexts[i]
    ensures w'.log == w.log + InvalidationEvents(w.contexts[id], id)
    ensures Wf(w.contexts) ==> Wf(w'.contexts) && ShapeKept(w.contexts, w'.contexts)
  {
    var a := w.contexts;
    var a' := a[id := Cleared(a[id])];
    assert Wf(a) ==> ChildrenLinked(a') by {
      if Wf(a) {
        forall i, k | 0 <= i < |a'| && 0 <= k < |a'[i].children|
          ensures i < a'[i].children[k] < |a'| && a'[a'[i].children[k]].parent == Some(i)
        {
          assert i != id;
        }
      }
    }
    World(w.store, a', w.log + InvalidationEvents(a[id], id))
  }

  /** `validate`: clears the flag of `id` alone. */
  function Validate(w: World, id: CtxId): (w': World)
    requires id < |w.contexts|
    ensures |w'.contexts| == |w.contexts| && w'.store == w.store && w'.log == w.log
    ensures !w'.contexts[id].invalidated
    ensures w'.contexts[id] == w.contexts[id].(invalidated := false)
    ensures forall i :: 0 <= i < |w.contexts| && i != id ==> w'.contexts[i] == w.contexts[i]
    ensures Wf(w.contexts) ==> Wf(w'.contexts) && ShapeKept(w.contexts, w'.contexts)
  {
    Put(w, id, w.contexts[id].(invalidated := false))
  }

  /** After `invalidate(id)`, `id` and everything below it reports invalidated; other contexts are unaffected. */
  lemma InvalidateReach(w: World, id: CtxId, d: CtxId)
    requires Wf(w.contexts) && id < |w.contexts| && d < |w.contexts|
    ensures var a' := Invalidate(w, id).contexts;
      && (id in Lineage(w.contexts, d) ==> IsInvalidated(a', d))
      && (id !in Lineage(w.contexts, d) ==> IsInvalidated(a', d) == IsInvalidated(w.contexts, d))
  {
    LineageKept(w.contexts, Invalidate(w, id).contexts, d);
  }

  /** `validate(id)` leaves every context outside the subtree of `id`, its ancestors included, as it was. */
  lemma ValidateOthers(w: World, id: CtxId, d: CtxId)
    requires Wf(w.contexts) && id < |w.contexts| && d < |w.contexts|
    requires id !in Lineage(w.contexts, d)
    ensures IsInvalidated(Validate(w, id).contexts, d) == IsInvalidated(w.contexts, d)
  {
    LineageKept(w.contexts, Validate(w, id).contexts, d);
  }

  /** After `validate(id)`, `id` is invalidated exactly when its parent is. */
  lemma {:induction false} ValidateSelf(w: World, id: CtxId)
    requires Wf(w.contexts) && id < |w.contexts|
    ensures var a := w.contexts;
      IsInvalidated(Validate(w, id).contexts, id) <==> a[id].parent.Some? && IsInvalidated(a, a[id].parent.value)
  {
    var a' := Validate(w, id).contexts;
    match w.contexts[id].parent
    case None =>
    case Some(p) =>
      assert id !in Lineage(w.contexts, p);
      ValidateOthers(w, id, p);
      assert IsInvalidated(a', id) == IsInvalidated(a', p);
  }

  /**
   * Scans `sibs` (children of `owner`) from the last to the first: a context with reference `ref`
   * is the answer; any other one is searched the same way through its own children first.
   */
  function ScanBack(a: Arena, owner: CtxId, sibs: seq<CtxId>, ref: Option<FloatReference>): (r: Option<CtxId>)
    requires Wf(a) && owner < |a|
    requires forall k :: 0 <= k < |sibs| ==> owner < sibs[k] < |a|
    ensures r.Some? ==> owner < r.value < |a| && a[r.value].floatReference == ref
    decreases |a| - owner, |sibs|
  {
    if sibs == [] then None
    else
      var last := sibs[|sibs| - 1];
      if a[last].floatReference == ref then Some(last)
      else
        match ScanBack(a, last, a[last].children, ref)
        case Some(found) => Some(found)
        case None => ScanBack(a, owner, sibs[..|sibs| - 1], ref)
  }

  /**
   * The children of `parent` listed before `child`. A child its parent no longer lists (its
   * parent was invalidated after it was created) has no earlier siblings.
   */
  function EarlierSiblings(a: Arena, parent: CtxId, child: CtxId): (r: seq<CtxId>)
    requires Wf(a) && parent < |a|
    ensures forall k :: 0 <= k < |r| ==> parent < r[k] < |a|
    ensures child !in a[parent].children ==> r == []
  {
    var kids := a[parent].children;
    var i := IndexOf(kids, child);
    if i < |kids| then kids[..i] else []
  }

  /** Searches the children of `parent` before `child`, then climbs one level and repeats. */
  function PreviousSiblingOf(a: Arena, parent: CtxId, child: CtxId, ref: Option<FloatReference>): (r: Option<CtxId>)
    requires Wf(a) && parent < |a|
    ensures r.Some? ==> r.value < |a| && a[r.value].floatReference == ref
    decreases parent
  {
    match ScanBack(a, parent, EarlierSiblings(a, parent, child), ref)
    case Some(found) => Some(found)
    case None =>
      match a[parent].parent
      case None => None
      case Some(grand) => PreviousSiblingOf(a, grand, parent, ref)
  }

  /** `getPreviousSibling`: the context with the same float reference that precedes `self`, or null. */
  function PreviousSibling(a: Arena, self: CtxId): (r: Option<CtxId>)
    requires Wf(a) && self < |a|
    ensures r.Some? ==> r.value < |a| && a[r.value].floatReference == a[self].floatReference
  {
    match a[self].parent
    case None => None
    case Some(p) => PreviousSiblingOf(a, p, self, a[self].floatReference)
  }

  /** The first child of the root has nothing before it. */
  lemma FirstChildOfRootHasNoPreviousSibling(a: Arena, self: CtxId)
    requires Wf(a) && 0 < self < |a|
    requires a[self].parent == Some(0)
    requires |a[0].children| > 0 && a[0].children[0] == self
    ensures PreviousSibling(a, self) == None
  {
    assert IndexOf(a[0].children, self) == 0;
  }

  /** A directly preceding sibling with the same float reference is the previous sibling. */
  lemma ImmediatePreviousSibling(a: Arena, self: CtxId, i: nat)
    requires Wf(a) && self < |a|
    requires a[self].parent.Some?
    requires var kids := a[a[self].parent.value].children;
      0 < i < |kids| && kids[i] == self && self !in kids[..i]
      && a[kids[i - 1]].floatReference == a[self].floatReference
    ensures PreviousSibling(a, self) == Some(a[a[self].parent.value].children[i - 1])
  {
    var kids := a[a[self].parent.value].children;
    assert IndexOf(kids, self) == i;
    assert kids[..i][i - 1] == kids[i - 1];
  }

  // ---------------------------------------------------------------- previous sibling, as a walk

  /**
   * The contexts of the subtrees rooted at `sibs` (children of `owner`), in document order. The
   * walk lists a context with reference `ref` but does not enter it: in the layout a context is
   * never nested inside another of its own level, and the sibling search does not look there.
   */
  function PrunedWalk(a: Arena, owner: CtxId, sibs: seq<CtxId>, ref: Option<FloatReference>): (r: seq<CtxId>)
    requires Wf(a) && owner < |a|
    requires forall k :: 0 <= k < |sibs| ==> owner < sibs[k] < |a|
    ensures forall k :: 0 <= k < |r| ==> owner < r[k] < |a|
    decreases |a| - owner, |sibs|
  {
    if sibs == [] then [] else PrunedWalk(a, owner, sibs[..|sibs| - 1], ref) + WalkFrom(a, sibs[|sibs| - 1], ref)
  }

  /** The part of the walk contributed by the sibling `k`: `k`, then its subtree unless `k` has the reference. */
  function WalkFrom(a: Arena, k: CtxId, ref: Option<FloatReference>): (r: seq<CtxId>)
    requires Wf(a) && k < |a|
    ensures forall j :: 0 <= j < |r| ==> k <= r[j] < |a|
    decreases |a| - k, |a[k].children| + 1
  {
    [k] + (if a[k].floatReference == ref then [] else PrunedWalk(a, k, a[k].children, ref))
  }

  /**
   * The contexts that come before `self` in document order and are not its ancestors: the walks
   * of the earlier siblings of each context on the lineage, from the root down. A context its
   * parent no longer lists contributes no earlier siblings at that level.
   */
  function Preceding(a: Arena, self: CtxId, ref: Option<FloatReference>): (r: seq<CtxId>)
    requires Wf(a) && self < |a|
    ensures forall k :: 0 <= k < |r| ==> r[k] < |a|
    decreases self
  {
    match a[self].parent
    case None => []
    case Some(p) => Preceding(a, p, ref) + PrunedWalk(a, p, EarlierSiblings(a, p, self), ref)
  }

  /** The position of the last context of `s` with reference `ref`. */
  function LastIndexWith(a: Arena, s: seq<CtxId>, ref: Option<FloatReference>): (k: Option<nat>)
    requires forall j :: 0 <= j < |s| ==> s[j] < |a|
    ensures k.Some? ==>
      && k.value < |s| && a[s[k.value]].floatReference == ref
      && forall j :: k.value < j < |s| ==> a[s[j]].floatReference != ref
    ensures k.None? ==> forall j :: 0 <= j < |s| ==> a[s[j]].floatReference != ref
  {
    if s == [] then None
    else if a[s[|s| - 1]].floatReference == ref then Some(|s| - 1)
    else LastIndexWith(a, s[..|s| - 1], ref)
  }

  /** The last context of `s` with reference `ref`, if any. */
  function LastWith(a: Arena, s: seq<CtxId>, ref: Option<FloatReference>): (r: Option<CtxId>)
    requires forall j :: 0 <= j < |s| ==> s[j] < |a|
  {
    match LastIndexWith(a, s, ref)
    case None => None
    case Some(k) => Some(s[k])
  }

  /** The last match of a concatenation is the last match of its second part, else of its first. */
  lemma LastWithAppend(a: Arena, x: seq<CtxId>, y: seq<CtxId>, ref: Option<FloatReference>)
    requires forall j :: 0 <= j < |x| ==> x[j] < |a|
    requires forall j :: 0 <= j < |y| ==> y[j] < |a|
    ensures LastWith(a, x + y, ref) == if LastWith(a, y, ref).Some? then LastWith(a, y, ref) else LastWith(a, x, ref)
  {
    var xy := x + y;
    assert forall m :: 0 <= m < |x| ==> xy[m] == x[m];
    assert forall m :: |x| <= m < |xy| ==> xy[m] == y[m - |x|];
    match LastIndexWith(a, y, ref)
    case Some(j) =>
      var k := LastIndexWith(a, xy, ref);
      assert xy[|x| + j] == y[j];
      assert k.Some? && k.value >= |x| + j;
      assert xy[k.value] == y[k.value - |x|];
    case None =>
      match LastIndexWith(a, x, ref)
      case Some(i) =>
        assert LastIndexWith(a, xy, ref) == Some(i);
      case None =>
        assert LastIndexWith(a, xy, ref) == None;
  }

  /** In a sibling's part of the walk, the sibling itself is the match if it has the reference. */
  lemma {:induction false} LastInWalkFrom(a: Arena, k: CtxId, ref: Option<FloatReference>)
    requires Wf(a) && k < |a|
    ensures LastWith(a, WalkFrom(a, k, ref), ref) ==
      if a[k].floatReference == ref then Some(k) else LastWith(a, PrunedWalk(a, k, a[k].children, ref), ref)
  {
    if a[k].floatReference == ref {
      assert WalkFrom(a, k, ref) == [k];
    } else {
      LastWithAppend(a, [k], PrunedWalk(a, k, a[k].children, ref), ref);
    }
  }

  /** Scanning siblings backwards finds the last context with the reference in their walk. */
  lemma {:induction false} ScanBackIsLastInWalk(a: Arena, owner: CtxId, sibs: seq<CtxId>, ref: Option<FloatReference>)
    requires Wf(a) && owner < |a|
    requires forall k :: 0 <= k < |sibs| ==> owner < sibs[k] < |a|
    ensures ScanBack(a, owner, sibs, ref) == LastWith(a, PrunedWalk(a, owner, sibs, ref), ref)
    decreases |a| - owner, |sibs|
  {
    if sibs != [] {
      var last := sibs[|sibs| - 1];
      var init := sibs[..|sibs| - 1];
      LastWithAppend(a, PrunedWalk(a, owner, init, ref), WalkFrom(a, last, ref), ref);
      LastInWalkFrom(a, last, ref);
      ScanBackIsLastInWalk(a, owner, init, ref);
      if a[last].floatReference != ref {
        ScanBackIsLastInWalk(a, last, a[last].children, ref);
      }
    }
  }

  /** The climbing search from `child` upwards finds the last matching context that precedes `child`. */
  lemma {:induction false} PreviousSiblingOfIsLast(a: Arena, parent: CtxId, child: CtxId, ref: Option<FloatReference>)
    requires Wf(a) && child < |a| && a[child].parent == Some(parent)
    ensures PreviousSiblingOf(a, parent, child, ref) == LastWith(a, Preceding(a, child, ref), ref)
    decreases parent
  {
    var before := EarlierSiblings(a, parent, child);
    ScanBackIsLastInWalk(a, parent, before, ref);
    LastWithAppend(a, Preceding(a, parent, ref), PrunedWalk(a, parent, before, ref), ref);
    match a[parent].parent
    case None =>
    case Some(grand) => PreviousSiblingOfIsLast(a, grand, parent, ref);
  }

  /**
   * `getPreviousSibling` answers the last context with `self`'s float reference among the contexts
   * before `self` in document order that are not its ancestors, and null when there is none.
   * On a level where the parent no longer lists the child, nothing counts as before it.
   */
  lemma {:induction false} PreviousSiblingIsLastPreceding(a: Arena, self: CtxId)
    requires Wf(a) && self < |a|
    ensures var ref := a[self].floatReference;
      PreviousSibling(a, self) == LastWith(a, Preceding(a, self, ref), ref)
  {
    match a[self].parent
    case None =>
    case Some(p) => PreviousSiblingOfIsLast(a, p, self, a[self].floatReference);
  }
}

=== FILE: finish.dfy ===
/**
 * `PageFloatLayoutContext.finish`, the reconciliation run when a fragmentainer is done.
 * Whether a float's anchor has appeared is supplied by the caller (`isAnchorAlreadyAppeared`
 * consults the rendered container, which is outside this model).
 */
module FinishStep {
  import opened Wrappers
  import opened FloatIds
  import opened PageFloats
  import opened Seqs
  import opened ContextTree
  import opened ContextOps

  /** The position of the last fragment whose anchor has not appeared, scanning from the end. */
  function LastUnappeared(frags: seq<Fragment>, appeared: FloatId -> bool): (k: Option<nat>)
    ensures k.Some? ==>
      && k.value < |frags| && !appeared(frags[k.value].float.id)
      && forall j :: k.value < j < |frags| ==> appeared(frags[j].float.id)
    ensures k.None? ==> forall j :: 0 <= j < |frags| ==> appeared(frags[j].float.id)
  {
    if frags == [] then None
    else if !appeared(frags[|frags| - 1].float.id) then Some(|frags| - 1)
    else LastUnappeared(frags[..|frags| - 1], appeared)
  }

  /** The continuations whose float's anchor has appeared, in their order. */
  function KeepAppeared(conts: seq<Continuation>, appeared: FloatId -> bool): (r: seq<Continuation>)
    ensures forall x :: x in r <==> x in conts && appeared(x.float.id)
    ensures Distinct(conts) ==> Distinct(r)
    ensures |r| <= |conts|
  {
    if conts == [] then []
    else
      var rest := KeepAppeared(conts[1..], appeared);
      if appeared(conts[0].float.id) then [conts[0]] + rest else rest
  }

  /** Keeping distributes over concatenation, so the kept continuations stay in their order. */
  lemma {:induction false} KeepAppearedAppend(s: seq<Continuation>, t: seq<Continuation>, appeared: FloatId -> bool)
    ensures KeepAppeared(s + t, appeared) == KeepAppeared(s, appeared) + KeepAppeared(t, appeared)
    decreases |s|
  {
    if s == [] {
      assert s + t == t;
    } else {
      assert (s + t)[0] == s[0] && (s + t)[1..] == s[1..] + t;
      KeepAppearedAppend(s[1..], t, appeared);
    }
  }

  /**
   * The transfer step: each continuation carried over from the previous fragmentainer is appended
   * to `acc`, unless `acc` holds it already or its float has a fragment here.
   */
  function Transfer(w: World, self: CtxId, acc: seq<Continuation>, pending: seq<Continuation>): (r: Result<seq<Continuation>, ErrorKind>)
    requires Wf(w.contexts) && self < |w.contexts|
    ensures (forall c :: c in pending ==> w.contexts[self].floatReference == Some(c.float.floatReference)) ==> r.Ok?
    ensures r.Ok? ==> |acc| <= |r.value| && r.value[..|acc|] == acc
    ensures r.Ok? ==> forall x :: x in r.value <==>
      x in acc || (x in pending && FindPageFloatFragment(w, self, x.float) == Ok(None))
    ensures r.Ok? && Distinct(acc) ==> Distinct(r.value)
    ensures r.Err? ==> exists c :: c in pending && c !in acc && Resolve(w.contexts, self, c.float.floatReference).Err?
    decreases |pending|
  {
    if pending == [] then Ok(acc)
    else
      var c := pending[0];
      assert forall x :: x in pending <==> x == c || x in pending[1..];
      if c in acc then Transfer(w, self, acc, pending[1..])
      else
        var found :- FindPageFloatFragment(w, self, c.float);
        if found.Some? then Transfer(w, self, acc, pending[1..])
        else
          var r := Transfer(w, self, acc + [c], pending[1..]);
          assert r.Ok? ==> r.value[..|acc|] == (acc + [c])[..|acc|];
          r
  }

  /**
   * The carried-over continuations that the transfer step appends, in their order: those not
   * listed in `acc` whose float has no fragment here.
   */
  function Unplaced(w: World, self: CtxId, acc: seq<Continuation>, pending: seq<Continuation>): (r: seq<Continuation>)
    requires Wf(w.contexts) && self < |w.contexts|
    ensures forall x :: x in r <==> x in pending && x !in acc && FindPageFloatFragment(w, self, x.float) == Ok(None)
    ensures |r| <= |pending|
  {
    if pending == [] then []
    else
      var c := pending[0];
      var rest := Unplaced(w, self, acc, pending[1..]);
      assert forall x :: x in pending <==> x == c || x in pending[1..];
      if c !in acc && FindPageFloatFragment(w, self, c.float) == Ok(None) then [c] + rest else rest
  }

  /** Listing a continuation in `acc` changes nothing for a list that does not hold it. */
  lemma {:induction false} UnplacedIgnores(w: World, self: CtxId, acc: seq<Continuation>, c: Continuation, pending: seq<Continuation>)
    requires Wf(w.contexts) && self < |w.contexts| && c !in pending
    ensures Unplaced(w, self, acc + [c], pending) == Unplaced(w, self, acc, pending)
    decreases |pending|
  {
    if pending != [] {
      assert pending[0] in acc + [c] <==> pending[0] in acc;
      UnplacedIgnores(w, self, acc, c, pending[1..]);
    }
  }

  /**
   * Over a list with no entry twice, a successful transfer appends exactly the unplaced
   * continuations to `acc`, in the order they were carried over.
   */
  lemma {:induction false} TransferInOrder(w: World, self: CtxId, acc: seq<Continuation>, pending: seq<Continuation>)
    requires Wf(w.contexts) && self < |w.contexts| && Distinct(pending)
    ensures Transfer(w, self, acc, pending).Ok? ==>
      Transfer(w, self, acc, pending).value == acc + Unplaced(w, self, acc, pending)
    decreases |pending|
  {
    if pending != [] {
      var c := pending[0];
      var q := pending[1..];
      assert Distinct(q) && c !in q by {
        forall j | 0 <= j < |q| ensures q[j] == pending[j + 1] && pending[0] != pending[j + 1] { }
      }
      if c !in acc && FindPageFloatFragment(w, self, c.float) == Ok(None) {
        TransferInOrder(w, self, acc + [c], q);
        UnplacedIgnores(w, self, acc, c, q);
      } else {
        TransferInOrder(w, self, acc, q);
      }
    }
  }

  /** Every fragment and every carried-over continuation of `self` is at `self`'s own level. */
  predicate Local(a: Arena, self: CtxId)
    requires self < |a|
  {
    && (forall fr :: fr in a[self].fragments ==> a[self].floatReference == Some(fr.float.floatReference))
    && (forall c :: c in a[self].deferredFromPrevious ==> a[self].floatReference == Some(c.float.floatReference))
  }

  /**
   * `finish`: if some fragment's anchor has not appeared, the last such fragment is removed and
   * its float forbidden, and nothing else happens. Otherwise the deferred-to-next list keeps the
   * continuations whose anchor appeared and receives the carried-over continuations that are
   * neither listed already nor placed here.
   */
  function Finish(w: World, self: CtxId, appeared: FloatId -> bool): (r: Result<World, ErrorKind>)
    requires Wf(w.contexts) && self < |w.contexts|
    ensures Local(w.contexts, self) ==> r.Ok?
    ensures r.Ok? ==>
      && Wf(r.value.contexts) && ShapeKept(w.contexts, r.value.contexts)
      && |r.value.contexts| == |w.contexts| && r.value.store == w.store
  {
    var me := w.contexts[self];
    match LastUnappeared(me.fragments, appeared)
    case Some(k) =>
      var frag := me.fragments[k];
      var w1 :- RemovePageFloatFragment(w, self, frag);
      ResolveKept(w.contexts, w1.contexts, self, frag.float.floatReference);
      Forbid(w1, self, frag.float)
    case None =>
      var next :- Transfer(w, self, KeepAppeared(me.deferredToNext, appeared), me.deferredFromPrevious);
      Ok(Put(w, self, me.(deferredToNext := next)))
  }

  /** With an unappeared fragment at index `k` and only appeared ones after it, `finish` removes it, then forbids its float. */
  lemma FinishIsRemoveThenForbid(w: World, self: CtxId, appeared: FloatId -> bool, k: nat)
    requires Wf(w.contexts) && self < |w.contexts| && Local(w.contexts, self)
    requires var frags := w.contexts[self].fragments;
      k < |frags| && !appeared(frags[k].float.id) && forall j :: k < j < |frags| ==> appeared(frags[j].float.id)
    ensures var frag := w.contexts[self].fragments[k];
      && Resolve(w.contexts, self, frag.float.floatReference) == Ok(self)
      && RemovePageFloatFragment(w, self, frag).Ok?
      && var w1 := RemovePageFloatFragment(w, self, frag).value;
      && Resolve(w1.contexts, self, frag.float.floatReference) == Ok(self)
      && Finish(w, self, appeared) == Forbid(w1, self, frag.float)
  {
    var me := w.contexts[self];
    var frag := me.fragments[k];
    assert LastUnappeared(me.fragments, appeared) == Some(k);
    assert Resolve(w.contexts, self, frag.float.floatReference) == Ok(self);
    var w1 := RemovePageFloatFragment(w, self, frag).value;
    ResolveKept(w.contexts, w1.contexts, self, frag.float.floatReference);
  }

  /** The fragment part of `FinishRemovesLastUnappeared`. */
  lemma FinishRemovedFragment(w: World, self: CtxId, appeared: FloatId -> bool, k: nat)
    requires Wf(w.contexts) && self < |w.contexts| && Local(w.contexts, self)
    requires var frags := w.contexts[self].fragments;
      k < |frags| && !appeared(frags[k].float.id) && forall j :: k < j < |frags| ==> appeared(frags[j].float.id)
    ensures var me := w.contexts[self];
      var frag := me.fragments[k];
      && Finish(w, self, appeared).Ok?
      && var w' := Finish(w, self, appeared).value;
      && multiset(w'.contexts[self].fragments) == multiset(me.fragments) - multiset{frag}
      && (var i := IndexOf(me.fragments, frag); w'.contexts[self].fragments == me.fragments[..i] + me.fragments[i + 1..])
  {
    var me := w.contexts[self];
    var frag := me.fragments[k];
    FinishIsRemoveThenForbid(w, self, appeared, k);
    var w1 := RemovePageFloatFragment(w, self, frag).value;
    var i := IndexOf(me.fragments, frag);
    assert i < |me.fragments|;
    assert w1.contexts[self].fragments == me.fragments[..i] + me.fragments[i + 1..];
  }

  /** The rest of `FinishRemovesLastUnappeared`. */
  lemma FinishRemovedRest(w: World, self: CtxId, appeared: FloatId -> bool, k: nat)
    requires Wf(w.contexts) && self < |w.contexts| && Local(w.contexts, self)
    requires var frags := w.contexts[self].fragments;
      k < |frags| && !appeared(frags[k].float.id) && forall j :: k < j < |frags| ==> appeared(frags[j].float.id)
    ensures var me := w.contexts[self];
      var frag := me.fragments[k];
      && Finish(w, self, appeared).Ok?
      && var w' := Finish(w, self, appeared).value;
      && w'.contexts[self].forbidden == me.forbidden + {frag.float.id}
      && w'.contexts[self].deferredToNext == me.deferredToNext
      && w'.contexts[self].invalidated
      && w'.log == w.log + [ElementDetached(frag.area.element)] + InvalidationEvents(me, self)
      && forall i :: 0 <= i < |w.contexts| && i != self ==> w'.contexts[i] == w.contexts[i]
  {
    var me := w.contexts[self];
    var frag := me.fragments[k];
    FinishIsRemoveThenForbid(w, self, appeared, k);
    var w1 := RemovePageFloatFragment(w, self, frag).value;
    var i := IndexOf(me.fragments, frag);
    assert i < |me.fragments|;
    assert w1.contexts[self].fragments == me.fragments[..i] + me.fragments[i + 1..];
  }

  /**
   * With an unappeared fragment at index `k` and only appeared ones after it, `finish` removes that
   * fragment (detaching its element), forbids its float at `self`, invalidates `self` and leaves
   * the deferred-to-next list and every other context alone.
   */
  lemma FinishRemovesLastUnappeared(w: World, self: CtxId, appeared: FloatId -> bool, k: nat)
    requires Wf(w.contexts) && self < |w.contexts| && Local(w.contexts, self)
    requires var frags := w.contexts[self].fragments;
      k < |frags| && !appeared(frags[k].float.id) && forall j :: k < j < |frags| ==> appeared(frags[j].float.id)
    ensures var me := w.contexts[self];
      var frag := me.fragments[k];
      && Finish(w, self, appeared).Ok?
      && var w' := Finish(w, self, appeared).value;
      && multiset(w'.contexts[self].fragments) == multiset(me.fragments) - multiset{frag}
      && (var i := IndexOf(me.fragments, frag); w'.contexts[self].fragments == me.fragments[..i] + me.fragments[i + 1..])
      && w'.contexts[self].forbidden == me.forbidden + {frag.float.id}
      && w'.contexts[self].deferredToNext == me.deferredToNext
      && w'.contexts[self].invalidated
      && w'.log == w.log + [ElementDetached(frag.area.element)] + InvalidationEvents(me, self)
      && forall i :: 0 <= i < |w.contexts| && i != self ==> w'.contexts[i] == w.contexts[i]
  {
    FinishRemovedFragment(w, self, appeared, k);
    FinishRemovedRest(w, self, appeared, k);
  }

  /**
   * With every fragment's anchor appeared, `finish` only rewrites `self`'s deferred-to-next list:
   * it holds the old entries whose anchor appeared, in their order, then the carried-over
   * continuations whose float has no fragment here, and no entry twice. When no continuation
   * was carried over twice, the appended ones keep the order they were carried over in.
   */
  lemma FinishTransfers(w: World, self: CtxId, appeared: FloatId -> bool)
    requires Wf(w.contexts) && self < |w.contexts| && Local(w.contexts, self)
    requires forall fr :: fr in w.contexts[self].fragments ==> appeared(fr.float.id)
    ensures var me := w.contexts[self];
      && Finish(w, self, appeared).Ok?
      && var w' := Finish(w, self, appeared).value;
      var next := w'.contexts[self].deferredToNext;
      && w'.contexts[self] == me.(deferredToNext := next)
      && (forall x :: x in next <==>
            (x in me.deferredToNext && appeared(x.float.id))
            || (x in me.deferredFromPrevious && forall fr :: fr in me.fragments ==> fr.float.id != x.float.id))
      && (Distinct(me.deferredToNext) ==> Distinct(next))
      && (var kept := KeepAppeared(me.deferredToNext, appeared);
          && |kept| <= |next| && next[..|kept|] == kept
          && (Distinct(me.deferredFromPrevious) ==> next == kept + Unplaced(w, self, kept, me.deferredFromPrevious)))
      && w'.log == w.log
      && forall i :: 0 <= i < |w.contexts| && i != self ==> w'.contexts[i] == w.contexts[i]
  {
    var me := w.contexts[self];
    var kept := KeepAppeared(me.deferredToNext, appeared);
    assert LastUnappeared(me.fragments, appeared).None?;
    var next := Transfer(w, self, kept, me.deferredFromPrevious).value;
    if Distinct(me.deferredFromPrevious) {
      TransferInOrder(w, self, kept, me.deferredFromPrevious);
    }
    forall x | x in me.deferredFromPrevious
      ensures FindPageFloatFragment(w, self, x.float) == Ok(None) <==> forall fr :: fr in me.fragments ==> fr.float.id != x.float.id
    {
      assert Resolve(w.contexts, self, x.float.floatReference) == Ok(self);
    }
  }
}

=== FILE: float_ids.dfy ===
/** The identifiers a page float store hands out: "pf0", "pf1", ... */
module FloatIds {
  import opened Wrappers

  type FloatId = string

  predicate IsDigit(c: char) {
    '0' <= c <= '9'
  }

  predicate AllDigits(s: string) {
    forall i :: 0 <= i < |s| ==> IsDigit(s[i])
  }

  function DigitChar(d: nat): (c: char)
    requires d < 10
    ensures IsDigit(c)
  {
    ('0' as int + d) as char
  }

  function DigitValue(c: char): (d: nat)
    requires IsDigit(c)
    ensures d < 10
  {
    c as int - '0' as int
  }

  /** Decimal spelling of `n`, most significant digit first, without leading zeros. */
  function Decimal(n: nat): (s: string)
    ensures |s| > 0 && AllDigits(s)
    ensures n >= 10 <==> |s| > 1
  {
    if n < 10 then [DigitChar(n)] else Decimal(n / 10) + [DigitChar(n % 10)]
  }

  /** Reads a string of digits back as a number. */
  function ParseDecimal(s: string): nat
    requires AllDigits(s)
  {
    if s == [] then 0 else 10 * ParseDecimal(s[..|s| - 1]) + DigitValue(s[|s| - 1])
  }

  lemma {:induction false} ParseDecimalOfDecimal(n: nat)
    ensures ParseDecimal(Decimal(n)) == n
  {
    if n >= 10 {
      var s := Decimal(n);
      assert s[..|s| - 1] == Decimal(n / 10);
      ParseDecimalOfDecimal(n / 10);
    }
  }

  /** The id given to the `n`-th float registered in a store. */
  function IdOf(n: nat): (id: FloatId)
    ensures |id| > 2 && id[..2] == "pf" && AllDigits(id[2..])
  {
    "pf" + Decimal(n)
  }

  /** Recovers the registration index from an id, or `None` for a string that is no id. */
  function ParseId(id: string): (r: Option<nat>)
    ensures r.Some? ==> |id| > 2 && id[..2] == "pf"
  {
    if |id| > 2 && id[..2] == "pf" && AllDigits(id[2..]) then Some(ParseDecimal(id[2..])) else None
  }

  lemma IdRoundTrip(n: nat)
    ensures ParseId(IdOf(n)) == Some(n)
  {
    var id := IdOf(n);
    assert id[2..] == Decimal(n);
    ParseDecimalOfDecimal(n);
  }

  /** Different registration indices never share an id. */
  lemma IdsDistinct(m: nat, n: nat)
    requires m != n
    ensures IdOf(m) != IdOf(n)
  {
    IdRoundTrip(m);
    IdRoundTrip(n);
  }
}

=== FILE: float_store.dfy ===
/** The document-wide registry of page floats (`PageFloatStore`). */
module FloatStore {
  import opened Wrappers
  import opened FloatIds
  import opened PageFloats

  /** Registered floats in registration order. */
  datatype Store = Store(floats: seq<PageFloat>)

  function Empty(): (st: Store)
    ensures Valid(st)
  {
    Store([])
  }

  /** Every float carries the id of its position and no source node is registered twice. */
  predicate Valid(st: Store) {
    && (forall i :: 0 <= i < |st.floats| ==> st.floats[i].id == IdOf(i))
    && (forall i, j :: 0 <= i < j < |st.floats| ==> st.floats[i].sourceNode != st.floats[j].sourceNode)
  }

  /** True when some registered float came from `node`. */
  predicate Knows(st: Store, node: NodeRef) {
    exists f :: f in st.floats && f.sourceNode == node
  }

  function FindIn(floats: seq<PageFloat>, node: NodeRef): (r: Option<PageFloat>)
    ensures r.Some? ==> r.value in floats && r.value.sourceNode == node
    ensures r.None? <==> forall f :: f in floats ==> f.sourceNode != node
  {
    if floats == [] then None
    else if floats[0].sourceNode == node then Some(floats[0])
    else FindIn(floats[1..], node)
  }

  /** `findPageFloatBySourceNode`: the float registered for `node`, or null. */
  function FindPageFloatBySourceNode(st: Store, node: NodeRef): (r: Option<PageFloat>)
    ensures r.Some? ==> r.value in st.floats && r.value.sourceNode == node
    ensures r.None? <==> !Knows(st, node)
  {
    FindIn(st.floats, node)
  }

  /** `addPageFloat`: registers a float under the next id, or throws for a known source node. */
  function AddPageFloat(st: Store, spec: FloatSpec): (r: Result<(Store, PageFloat), ErrorKind>)
    ensures r.Err? <==> Knows(st, spec.sourceNode)
    ensures r.Err? ==> r.error == DuplicateSource
    ensures r.Ok? ==>
      var (st', f) := r.value;
      && st'.floats == st.floats + [f]
      && f.id == IdOf(|st.floats|)
      && f.sourceNode == spec.sourceNode
      && f.floatReference == spec.floatReference
      && f.floatSide == spec.floatSide
  {
    if FindPageFloatBySourceNode(st, spec.sourceNode).Some? then Err(DuplicateSource)
    else
      var f := PageFloat(IdOf(|st.floats|), spec.sourceNode, spec.floatReference, spec.floatSide);
      Ok((Store(st.floats + [f]), f))
  }

  /** Registration keeps the store valid. */
  lemma AddPreservesValid(st: Store, spec: FloatSpec)
    requires Valid(st)
    requires AddPageFloat(st, spec).Ok?
    ensures Valid(AddPageFloat(st, spec).value.0)
  {
    var (st', f) := AddPageFloat(st, spec).value;
    forall i, j | 0 <= i < j < |st'.floats|
      ensures st'.floats[i].sourceNode != st'.floats[j].sourceNode
    {
      if j == |st.floats| {
        assert st'.floats[i] in st.floats;
      }
    }
  }

  /** In a valid store ids never repeat. */
  lemma IdsUnique(st: Store, i: nat, j: nat)
    requires Valid(st)
    requires i < j < |st.floats|
    ensures st.floats[i].id != st.floats[j].id
  {
    IdsDistinct(i, j);
  }

  /** A registered float is found again by its source node. */
  lemma AddThenFind(st: Store, spec: FloatSpec)
    requires Valid(st)
    requires AddPageFloat(st, spec).Ok?
    ensures var (st', f) := AddPageFloat(st, spec).value;
      FindPageFloatBySourceNode(st', spec.sourceNode) == Some(f)
  {
    var (st', f) := AddPageFloat(st, spec).value;
    FindAppended(st.floats, f);
  }

  lemma {:induction false} FindAppended(floats: seq<PageFloat>, f: PageFloat)
    requires forall g :: g in floats ==> g.sourceNode != f.sourceNode
    ensures FindIn(floats + [f], f.sourceNode) == Some(f)
  {
    if floats != [] {
      assert (floats + [f])[1..] == floats[1..] + [f];
      FindAppended(floats[1..], f);
    }
  }

  /** A second float for an already registered node is refused and the first stays registered. */
  lemma DuplicateRefused(st: Store, spec: FloatSpec, again: FloatSpec)
    requires AddPageFloat(st, spec).Ok?
    requires again.sourceNode == spec.sourceNode
    ensures var (st', f) := AddPageFloat(st, spec).value;
      AddPageFloat(st', again) == Err(DuplicateSource) && f in st'.floats
  {
    var (st', f) := AddPageFloat(st, spec).value;
    assert f in st'.floats;
  }
}

=== FILE: page_floats.dfy ===
/** The records the page-float bookkeeping is made of. */
module PageFloats {
  import opened Wrappers
  import opened FloatIds

  /** The fragmentation level a float is placed at; `Page` is the outermost. */
  datatype FloatReference = Page | Region | Column

  /** The side of its fragmentainer a float is anchored to. */
  datatype FloatSide = BlockStart | BlockEnd | InlineStart | InlineEnd

  /** Identity of a node of the source document. */
  type NodeRef = nat
  /** Identity of a rendered view node (an anchor marker). */
  type ViewNode = nat
  /** Identity of the rendered element of a placed float area. */
  type ElementRef = nat
  /** Identity of the container box of a context. */
  type ContainerRef = nat
  /** An opaque resume position in the content stream. */
  type NodePosition = nat

  /** A float as constructed, before a store has given it an id. */
  datatype FloatSpec = FloatSpec(sourceNode: NodeRef, floatReference: FloatReference, floatSide: FloatSide)

  /** A registered float. */
  datatype PageFloat = PageFloat(id: FloatId, sourceNode: NodeRef, floatReference: FloatReference, floatSide: FloatSide)

  /** The box a float was laid out into. */
  datatype Area = Area(element: ElementRef)

  /** A float placed into an area. */
  datatype Fragment = Fragment(float: PageFloat, area: Area)

  /** A float that did not fit and is carried to the next fragmentainer. */
  datatype Continuation = Continuation(float: PageFloat, nodePosition: NodePosition, flowName: Option<string>)

  /** The two kinds of thrown error. */
  datatype ErrorKind =
    | DuplicateSource   // a float for the same source node is already registered
    | ScopeResolution   // no context at the float's reference encloses the caller
}

=== FILE: scenarios.dfy ===
/**
 * The situations the page-float suite sets up, replayed on the model. Each lemma builds the same
 * tree and performs the same calls as one group of expectations, and states their outcome.
 */
module Scenarios {
  import opened Wrappers
  import opened FloatIds
  import opened PageFloats
  import opened Seqs
  import FloatStore
  import opened ContextTree
  import opened ContextOps
  import opened FinishStep

  /** Two floats from different source nodes get "pf0" and "pf1"; a third from the first node is refused. */
  lemma StoreScenario(n1: NodeRef, n2: NodeRef, side: FloatSide)
    requires n1 != n2
    ensures var r1 := FloatStore.AddPageFloat(FloatStore.Empty(), FloatSpec(n1, Column, side));
      && r1.Ok? && r1.value.1.id == "pf0"
      && var r2 := FloatStore.AddPageFloat(r1.value.0, FloatSpec(n2, Column, side));
      && r2.Ok? && r2.value.1.id == "pf1"
      && FloatStore.FindPageFloatBySourceNode(r2.value.0, n1) == Some(r1.value.1)
      && FloatStore.AddPageFloat(r2.value.0, FloatSpec(n1, Column, side)) == Err(DuplicateSource)
  {
    var r1 := FloatStore.AddPageFloat(FloatStore.Empty(), FloatSpec(n1, Column, side));
    assert Decimal(0) == "0";
    assert Decimal(1) == "1";
    var r2 := FloatStore.AddPageFloat(r1.value.0, FloatSpec(n2, Column, side));
    assert r2.value.0.floats[0] == r1.value.1;
  }

  /** After one float is added, a source node that has no float finds nothing. */
  lemma StoreMissScenario(n1: NodeRef, n2: NodeRef)
    requires n1 != n2
    ensures var r := FloatStore.AddPageFloat(FloatStore.Empty(), FloatSpec(n1, Column, BlockStart));
      && r.Ok? && FloatStore.FindPageFloatBySourceNode(r.value.0, n2) == None
  {
  }

  /** A page context given vertical-rl and rtl passes both on to a region context created without them. */
  lemma ConstructorScenario()
    ensures var (w1, page) := NewContext(Init(), 0, Page, None, None, Some(VerticalRl), Some(Rtl));
      var (w2, region) := NewContext(w1, page, Region, None, None, None, None);
      && w2.contexts[region].writingMode == Some(VerticalRl) && w2.contexts[region].direction == Some(Rtl)
      && w1.contexts[0].children == [page] && w2.contexts[page].children == [region]
  {
  }

  /** Adds a context with no container, flow name, writing mode or direction. */
  function Plain(w: World, parent: CtxId, ref: FloatReference): (r: (World, CtxId))
    requires Wf(w.contexts) && parent < |w.contexts|
    ensures Wf(r.0.contexts) && r.1 == |w.contexts| && |r.0.contexts| == r.1 + 1
    ensures r.0.contexts[r.1].parent == Some(parent) && r.0.contexts[r.1].floatReference == Some(ref)
  {
    NewContext(w, parent, ref, None, None, None, None)
  }

  /** Two sibling page contexts each add a float; both floats are found through both contexts. */
  lemma SiblingPagesFindScenario(n1: NodeRef, n2: NodeRef)
    requires n1 != n2
    ensures var (w1, c1) := Plain(Init(), 0, Page);
      var (w2, c2) := Plain(w1, 0, Page);
      var r3 := AddPageFloat(w2, c1, FloatSpec(n1, Page, BlockStart));
      && r3.Ok?
      && var (w3, f1) := r3.value;
      && var r4 := AddPageFloat(w3, c2, FloatSpec(n2, Page, BlockStart));
      && r4.Ok?
      && var (w4, f2) := r4.value;
      && FindPageFloatBySourceNode(w4, c1, n1) == Some(f1)
      && FindPageFloatBySourceNode(w4, c1, n2) == Some(f2)
      && FindPageFloatBySourceNode(w4, c2, n1) == Some(f1)
      && FindPageFloatBySourceNode(w4, c2, n2) == Some(f2)
  {
    var (w1, c1) := Plain(Init(), 0, Page);
    var (w2, c2) := Plain(w1, 0, Page);
    assert FloatStore.Valid(w2.store) && w2.store.floats == [];
    FloatVisibleEverywhere(w2, c1, FloatSpec(n1, Page, BlockStart), c2);
    var (w3, f1) := AddPageFloat(w2, c1, FloatSpec(n1, Page, BlockStart)).value;
    assert !FloatStore.Knows(w3.store, n2);
    FloatVisibleEverywhere(w3, c2, FloatSpec(n2, Page, BlockStart), c1);
    var (w4, f2) := AddPageFloat(w3, c2, FloatSpec(n2, Page, BlockStart)).value;
    assert w4.store.floats == [f1, f2];
  }

  /** A new page context appended below the root. */
  function AddPage(w: World): (r: World)
    requires Wf(w.contexts)
    ensures Wf(r.contexts) && ShapeKept(w.contexts, r.contexts) && |r.contexts| == |w.contexts| + 1
    ensures r.contexts[0].children == w.contexts[0].children + [|w.contexts|]
    ensures r.contexts[|w.contexts|].parent == Some(0) && r.contexts[|w.contexts|].floatReference == Some(Page)
  {
    NewContext(w, 0, Page, None, None, None, None).0
  }

  /** A root context with nothing below it, such as the one `Init` makes. */
  predicate LoneRoot(w: World) {
    Wf(w.contexts) && |w.contexts| == 1 && w.contexts[0].children == []
  }

  /** Three page contexts created one after another below a lone root. */
  function ThreePages(w: World): (a: Arena)
    requires LoneRoot(w)
    ensures Wf(a) && |a| == 4
  {
    AddPage(AddPage(AddPage(w))).contexts
  }

  predicate ThreeShape(a: Arena) {
    && Wf(a) && |a| == 4 && a[0].children == [1, 2, 3]
    && a[1].floatReference == a[2].floatReference == a[3].floatReference == Some(Page)
    && a[1].parent == a[2].parent == a[3].parent == Some(0)
  }

  lemma ThreePagesShape(w: World)
    requires LoneRoot(w)
    ensures ThreeShape(ThreePages(w))
  {
  }

  /** Each of three sibling pages finds the one created before it; the first finds none. */
  lemma ThreePagesScenario(a: Arena)
    requires ThreeShape(a)
    ensures PreviousSibling(a, 3) == Some(2)
    ensures PreviousSibling(a, 2) == Some(1)
    ensures PreviousSibling(a, 1) == None
  {
    ImmediatePreviousSibling(a, 3, 2);
    ImmediatePreviousSibling(a, 2, 1);
    FirstChildOfRootHasNoPreviousSibling(a, 1);
  }

  /**
   * The nine-context tree: pages 1 and 7 below the root; regions 2 and 4 below 1, 8 below 7;
   * columns 3 below 2, 5 and 6 below 4, 9 below 8.
   */
  function NineContexts(w: World): (a: Arena)
    requires LoneRoot(w)
    ensures Wf(a) && |a| == 10
  {
    var (w1, c1) := Plain(w, 0, Page);
    var (w2, c2) := Plain(w1, c1, Region);
    var (w3, c3) := Plain(w2, c2, Column);
    var (w4, c4) := Plain(w3, c1, Region);
    var (w5, c5) := Plain(w4, c4, Column);
    var (w6, c6) := Plain(w5, c4, Column);
    var (w7, c7) := Plain(w6, 0, Page);
    var (w8, c8) := Plain(w7, c7, Region);
    var (w9, c9) := Plain(w8, c8, Column);
    w9.contexts
  }

  /** The shape of the nine-context tree, link by link. */
  predicate NineShape(a: Arena) {
    && Wf(a) && |a| == 10
    && a[0].children == [1, 7] && a[1].children == [2, 4] && a[2].children == [3]
    && a[4].children == [5, 6] && a[7].children == [8] && a[8].children == [9]
    && a[1].parent == Some(0) && a[4].parent == Some(1) && a[7].parent == Some(0) && a[8].parent == Some(7)
    && a[9].parent == Some(8) && a[5].parent == Some(4)
    && a[1].floatReference == Some(Page) && a[7].floatReference == Some(Page)
    && a[2].floatReference == Some(Region) && a[4].floatReference == Some(Region) && a[8].floatReference == Some(Region)
    && a[3].floatReference == Some(Column) && a[5].floatReference == Some(Column)
    && a[6].floatReference == Some(Column) && a[9].floatReference == Some(Column)
  }

  /** The contexts created in the order of the suite form the nine-context tree. */
  lemma NineContextsShape(w: World)
    requires LoneRoot(w)
    ensures NineShape(NineContexts(w))
  {
  }

  /** Context 9 finds column 6, the last column of the previous page's last region. */
  lemma PreviousSiblingOfNine(a: Arena)
    requires NineShape(a)
    ensures PreviousSibling(a, 9) == Some(6)
  {
    assert ScanBack(a, 4, [5, 6], Some(Column)) == Some(6);
    assert ScanBack(a, 1, [2, 4], Some(Column)) == Some(6);
    assert ScanBack(a, 0, [1], Some(Column)) == Some(6);
    assert a[0].children[..IndexOf(a[0].children, 7)] == [1];
    assert PreviousSiblingOf(a, 0, 7, Some(Column)) == Some(6);
    assert IndexOf(a[7].children, 8) == 0;
    assert PreviousSiblingOf(a, 7, 8, Some(Column)) == Some(6);
    assert IndexOf(a[8].children, 9) == 0;
  }

  /** Context 8 finds region 4, the last region of the previous page. */
  lemma PreviousSiblingOfEight(a: Arena)
    requires NineShape(a)
    ensures PreviousSibling(a, 8) == Some(4)
  {
    assert ScanBack(a, 1, [2, 4], Some(Region)) == Some(4);
    assert ScanBack(a, 0, [1], Some(Region)) == Some(4);
    assert a[0].children[..IndexOf(a[0].children, 7)] == [1];
    assert PreviousSiblingOf(a, 0, 7, Some(Region)) == Some(4);
    assert IndexOf(a[7].children, 8) == 0;
  }

  /** Context 7 finds page 1, its directly preceding sibling. */
  lemma PreviousSiblingOfSeven(a: Arena)
    requires NineShape(a)
    ensures PreviousSibling(a, 7) == Some(1)
  {
    assert a[0].children[..IndexOf(a[0].children, 7)] == [1];
  }

  /** Context 5 finds column 3 below the preceding region 2, its first sibling having none before it. */
  lemma PreviousSiblingOfFive(a: Arena)
    requires NineShape(a)
    ensures PreviousSibling(a, 5) == Some(3)
  {
    assert ScanBack(a, 2, [3], Some(Column)) == Some(3);
    assert ScanBack(a, 1, [2], Some(Column)) == Some(3);
    assert a[1].children[..IndexOf(a[1].children, 4)] == [2];
    assert PreviousSiblingOf(a, 1, 4, Some(Column)) == Some(3);
    assert IndexOf(a[4].children, 5) == 0;
  }

  /** A page context below `parent`, a region below it and a column below that; the region and column carry `flow`. */
  function PageRegionColumn(w: World, parent: CtxId, flow: Option<string>): (r: (World, CtxId, CtxId, CtxId))
    requires Wf(w.contexts) && parent < |w.contexts|
    ensures var (w', p, rg, c) := r;
      && Wf(w'.contexts) && p == |w.contexts| && rg == p + 1 && c == p + 2 && |w'.contexts| == p + 3
      && w'.store == w.store && w'.log == w.log
      && w'.contexts[p].parent == Some(parent) && w'.contexts[p].floatReference == Some(Page)
      && w'.contexts[rg].parent == Some(p) && w'.contexts[rg].floatReference == Some(Region)
      && w'.contexts[c].parent == Some(rg) && w'.contexts[c].floatReference == Some(Column)
      && w'.contexts[p].flowName == None && w'.contexts[rg].flowName == flow && w'.contexts[c].flowName == flow
      && ShapeKept(w.contexts, w'.contexts)
  {
    var (w1, p) := NewContext(w, parent, Page, None, None, None, None);
    var (w2, rg) := NewContext(w1, p, Region, None, flow, None, None);
    var (w3, c) := NewContext(w2, rg, Column, None, flow, None, None);
    (w3, p, rg, c)
  }

  /**
   * A column float forbidden from a column is forbidden there, unreachable from the region, and
   * not forbidden in a new column of the same region.
   */
  lemma ForbidColumnScenario(node: NodeRef)
    ensures var (w, p, rg, col) := PageRegionColumn(Init(), 0, None);
      var r := AddPageFloat(w, col, FloatSpec(node, Column, BlockStart));
      && r.Ok?
      && var (w1, f) := r.value;
      && Forbid(w1, col, f).Ok?
      && var w2 := Forbid(w1, col, f).value;
      && IsForbidden(w2, col, f) == Ok(true)
      && IsForbidden(w2, rg, f) == Err(ScopeResolution)
      && var (w3, col2) := Plain(w2, rg, Column);
      IsForbidden(w3, col2, f) == Ok(false)
  {
    var (w, p, rg, col) := PageRegionColumn(Init(), 0, None);
    var (w1, f) := AddPageFloat(w, col, FloatSpec(node, Column, BlockStart)).value;
    var w2 := Forbid(w1, col, f).value;
    ResolveKept(w.contexts, w2.contexts, rg, Column);
    var (w3, col2) := Plain(w2, rg, Column);
    ResolveKept(w2.contexts, w3.contexts, col, Column);
  }

  /** A page float added to a page context is not forbidden there until `forbid` is called. */
  lemma ForbidOwnScenario(node: NodeRef)
    ensures var (w, p) := Plain(Init(), 0, Page);
      var r := AddPageFloat(w, p, FloatSpec(node, Page, BlockStart));
      && r.Ok?
      && var (w1, f) := r.value;
      && IsForbidden(w1, p, f) == Ok(false)
      && Forbid(w1, p, f).Ok?
      && IsForbidden(Forbid(w1, p, f).value, p, f) == Ok(true)
  {
    var (w, p) := Plain(Init(), 0, Page);
    assert w.contexts[p].forbidden == {};
  }

  /**
   * A page float forbidden from a column is forbidden from the column, its region and its page, and
   * from new regions and columns of that page, but not below a new page.
   */
  lemma ForbidPageScenario(node: NodeRef)
    ensures var (w, p, rg, col) := PageRegionColumn(Init(), 0, None);
      var r := AddPageFloat(w, col, FloatSpec(node, Page, BlockStart));
      && r.Ok?
      && var (w1, f) := r.value;
      && Forbid(w1, col, f).Ok?
      && var w2 := Forbid(w1, col, f).value;
      && IsForbidden(w2, col, f) == Ok(true)
      && IsForbidden(w2, rg, f) == Ok(true)
      && IsForbidden(w2, p, f) == Ok(true)
      && var (w3, col2) := Plain(w2, rg, Column);
      && IsForbidden(w3, col2, f) == Ok(true)
      && var (w4, rg2) := Plain(w3, p, Region);
      && var (w5, col3) := Plain(w4, rg2, Column);
      && IsForbidden(w5, col3, f) == Ok(true)
      && IsForbidden(w5, rg2, f) == Ok(true)
      && var (w6, p2, rg3, col4) := PageRegionColumn(w5, 0, None);
      && IsForbidden(w6, col4, f) == Ok(false)
      && IsForbidden(w6, rg3, f) == Ok(false)
      && IsForbidden(w6, p2, f) == Ok(false)
  {
    var (w, p, rg, col) := PageRegionColumn(Init(), 0, None);
    var (w1, f) := AddPageFloat(w, col, FloatSpec(node, Page, BlockStart)).value;
    assert Resolve(w.contexts, col, Page) == Ok(p);
    ResolveKept(w.contexts, w1.contexts, col, Page);
    var w2 := Forbid(w1, col, f).value;
    ResolveKept(w.contexts, w2.contexts, p, Page);
    ResolveKept(w.contexts, w2.contexts, col, Page);
    ResolveKept(w.contexts, w2.contexts, rg, Page);
    assert IsForbidden(w2, col, f) == Ok(true);
    assert IsForbidden(w2, rg, f) == Ok(true);
    assert IsForbidden(w2, p, f) == Ok(true);
    var (w3, col2) := Plain(w2, rg, Column);
    ResolveKept(w2.contexts, w3.contexts, rg, Page);
    assert IsForbidden(w3, col2, f) == Ok(true);
    var (w4, rg2) := Plain(w3, p, Region);
    ResolveKept(w2.contexts, w4.contexts, p, Page);
    var (w5, col3) := Plain(w4, rg2, Column);
    ResolveKept(w2.contexts, w5.contexts, p, Page);
    assert Resolve(w5.contexts, rg2, Page) == Ok(p);
    assert IsForbidden(w5, col3, f) == Ok(true);
    assert IsForbidden(w5, rg2, f) == Ok(true);
    var (w6, p2, rg3, col4) := PageRegionColumn(w5, 0, None);
    assert w6.contexts[p2].forbidden == {};
    assert Resolve(w6.contexts, p2, Page) == Ok(p2);
    assert Resolve(w6.contexts, rg3, Page) == Ok(p2);
    assert Resolve(w6.contexts, col4, Page) == Ok(p2);
    assert IsForbidden(w6, col4, f) == Ok(false);
    assert IsForbidden(w6, rg3, f) == Ok(false);
  }

  /**
   * A region float forbidden from a column is forbidden from every column and the region itself,
   * unreachable from the page, and not forbidden below a new region.
   */
  lemma ForbidRegionScenario(node: NodeRef)
    ensures var (w, p, rg, col) := PageRegionColumn(Init(), 0, None);
      var r := AddPageFloat(w, col, FloatSpec(node, Region, BlockStart));
      && r.Ok?
      && var (w1, f) := r.value;
      && Forbid(w1, col, f).Ok?
      && var w2 := Forbid(w1, col, f).value;
      && IsForbidden(w2, col, f) == Ok(true)
      && IsForbidden(w2, rg, f) == Ok(true)
      && IsForbidden(w2, p, f) == Err(ScopeResolution)
      && var (w3, col2) := Plain(w2, rg, Column);
      && IsForbidden(w3, col2, f) == Ok(true)
      && var (w4, rg2) := Plain(w3, p, Region);
      && var (w5, col3) := Plain(w4, rg2, Column);
      && IsForbidden(w5, col3, f) == Ok(false)
      && IsForbidden(w5, rg2, f) == Ok(false)
  {
    var (w, p, rg, col) := PageRegionColumn(Init(), 0, None);
    var (w1, f) := AddPageFloat(w, col, FloatSpec(node, Region, BlockStart)).value;
    assert Resolve(w.contexts, col, Region) == Ok(rg);
    ResolveKept(w.contexts, w1.contexts, col, Region);
    var w2 := Forbid(w1, col, f).value;
    ResolveKept(w.contexts, w2.contexts, p, Region);
    ResolveKept(w.contexts, w2.contexts, col, Region);
    ResolveKept(w.contexts, w2.contexts, rg, Region);
    assert IsForbidden(w2, col, f) == Ok(true);
    assert IsForbidden(w2, rg, f) == Ok(true);
    assert IsForbidden(w2, p, f) == Err(ScopeResolution);
    var (w3, col2) := Plain(w2, rg, Column);
    ResolveKept(w2.contexts, w3.contexts, rg, Region);
    assert IsForbidden(w3, col2, f) == Ok(true);
    var (w4, rg2) := Plain(w3, p, Region);
    var (w5, col3) := Plain(w4, rg2, Column);
    assert Resolve(w5.contexts, col3, Region) == Ok(rg2);
    assert IsForbidden(w5, col3, f) == Ok(false);
    assert IsForbidden(w5, rg2, f) == Ok(false);
  }

  /** The page, region and column of a fresh tree, with a float of level `ref` registered through the column. */
  function WithFloat(node: NodeRef, ref: FloatReference): (r: (World, CtxId, CtxId, CtxId, PageFloat))
    ensures var (w, p, rg, col, f) := r;
      && Wf(w.contexts) && p == 1 && rg == 2 && col == 3 && |w.contexts| == 4
      && w.log == [] && f.floatReference == ref && f.id == IdOf(0)
      && w.contexts[p].parent == Some(0) && w.contexts[p].floatReference == Some(Page)
      && w.contexts[rg].parent == Some(p) && w.contexts[rg].floatReference == Some(Region)
      && w.contexts[col].parent == Some(rg) && w.contexts[col].floatReference == Some(Column)
      && w.contexts[p].container.None? && w.contexts[rg].container.None? && w.contexts[col].container.None?
  {
    var (w, p, rg, col) := PageRegionColumn(Init(), 0, None);
    var (w1, f) := AddPageFloat(w, col, FloatSpec(node, ref, BlockStart)).value;
    (w1, p, rg, col, f)
  }

  /**
   * A page float's fragment added from the column is handed to the region and the page; each of
   * the three records the call and invalidates itself once the level above has finished.
   * The suite checks only that each of these calls happens; the order of the log is the model's.
   */
  lemma PageFragmentCascadeScenario(node: NodeRef, area: Area)
    ensures var (w, p, rg, col, f) := WithFloat(node, Page);
      var frag := Fragment(f, area);
      && AddPageFloatFragment(w, col, frag).Ok?
      && AddPageFloatFragment(w, col, frag).value.log == [
           AddFragmentCalled(col, frag), AddFragmentCalled(rg, frag), AddFragmentCalled(p, frag),
           InvalidateCalled(p), InvalidateCalled(rg), InvalidateCalled(col)]
  {
  }

  /**
   * A region float's fragment reaches the region but not the page.
   * The suite checks only that each of these calls happens; the order of the log is the model's.
   */
  lemma RegionFragmentCascadeScenario(node: NodeRef, area: Area)
    ensures var (w, p, rg, col, f) := WithFloat(node, Region);
      var frag := Fragment(f, area);
      && AddPageFloatFragment(w, col, frag).Ok?
      && AddPageFloatFragment(w, col, frag).value.log == [
           AddFragmentCalled(col, frag), AddFragmentCalled(rg, frag), InvalidateCalled(rg), InvalidateCalled(col)]
  {
  }

  /**
   * A column float's fragment stays at the column.
   * The suite checks only that each of these calls happens; the order of the log is the model's.
   */
  lemma ColumnFragmentCascadeScenario(node: NodeRef, area: Area)
    ensures var (w, p, rg, col, f) := WithFloat(node, Column);
      var frag := Fragment(f, area);
      && AddPageFloatFragment(w, col, frag).Ok?
      && AddPageFloatFragment(w, col, frag).value.log == [AddFragmentCalled(col, frag), InvalidateCalled(col)]
  {
  }

  /** A page (1) below the root, a region (2) below the page and a column (3) below the region. */
  predicate PageTree(w: World) {
    && Wf(w.contexts) && |w.contexts| == 4
    && w.contexts[1].parent == Some(0) && w.contexts[1].floatReference == Some(Page)
    && w.contexts[2].parent == Some(1) && w.contexts[2].floatReference == Some(Region)
    && w.contexts[3].parent == Some(2) && w.contexts[3].floatReference == Some(Column)
  }

  /** `PageTree` once a region float's fragment has been added from the column: the region holds it. */
  predicate RegionHolds(w: World, frag: Fragment) {
    && PageTree(w) && frag.float.floatReference == Region
    && w.contexts[2].fragments == [frag]
  }

  /** A region float has no fragment yet; adding one from the column hands it to the region. */
  lemma FindFragmentInAncestorAdds(node: NodeRef, area: Area)
    ensures var (w, p, rg, col, f) := WithFloat(node, Region);
      var frag := Fragment(f, area);
      && FindPageFloatFragment(w, col, f) == Ok(None)
      && AddPageFloatFragment(w, col, frag).Ok?
      && RegionHolds(AddPageFloatFragment(w, col, frag).value, frag)
  {
    var (w, p, rg, col, f) := WithFloat(node, Region);
    var frag := Fragment(f, area);
    AddFragmentEffect(w, col, frag);
  }

  /**
   * Once the region holds the fragment, it is found from the region and from a second column
   * created below it, while the page cannot resolve the float's reference.
   */
  lemma FindFragmentInAncestorFinds(w: World, frag: Fragment)
    requires RegionHolds(w, frag)
    ensures var (w2, col2) := Plain(w, 2, Column);
      && FindPageFloatFragment(w2, col2, frag.float) == Ok(Some(frag))
      && FindPageFloatFragment(w2, 2, frag.float) == Ok(Some(frag))
      && FindPageFloatFragment(w2, 1, frag.float) == Err(ScopeResolution)
  {
    var (w2, col2) := Plain(w, 2, Column);
    ResolveKept(w.contexts, w2.contexts, 2, Region);
    ResolveKept(w.contexts, w2.contexts, 1, Region);
  }

  /** `PageTree` with a fragment of a page float held by the page, as the first of its float. */
  predicate PageHolds(w: World, frag: Fragment) {
    && PageTree(w) && frag.float.floatReference == Page
    && FragmentOf(w.contexts[1].fragments, frag.float.id) == Some(frag)
  }

  /**
   * A fragment of a page float added from the column goes to the page, which had none of that float.
   * The suite adds it from the column it created below the region in the first half of the test;
   * that column resolves PAGE to the same page as column 3 does.
   */
  lemma PageFragmentFromColumn(w: World, frag: Fragment)
    requires PageTree(w) && frag.float.floatReference == Page
    requires forall fr :: fr in w.contexts[1].fragments ==> fr.float.id != frag.float.id
    ensures AddPageFloatFragment(w, 3, frag).Ok?
    ensures PageHolds(AddPageFloatFragment(w, 3, frag).value, frag)
  {
    AddThenFindFragment(w, 3, frag, 1);
  }

  /**
   * Once the page holds the fragment, a region created below the page and a column created below
   * that region find it, and so does the page itself.
   */
  lemma FindFragmentFromNewDescendants(w: World, frag: Fragment)
    requires PageHolds(w, frag)
    ensures var (w2, rg2) := Plain(w, 1, Region);
      var (w3, col2) := Plain(w2, rg2, Column);
      && FindPageFloatFragment(w3, col2, frag.float) == Ok(Some(frag))
      && FindPageFloatFragment(w3, rg2, frag.float) == Ok(Some(frag))
      && FindPageFloatFragment(w3, 1, frag.float) == Ok(Some(frag))
  {
    var (w2, rg2) := Plain(w, 1, Region);
    var (w3, col2) := Plain(w2, rg2, Column);
    ResolveFromNewChild(w, 1, Region, None, None, None, None, Page);
    ResolveFromNewChild(w2, rg2, Column, None, None, None, None, Page);
    ResolveKept(w.contexts, w3.contexts, 1, Page);
    ResolveKept(w2.contexts, w3.contexts, rg2, Page);
    assert w3.contexts[1].fragments == w.contexts[1].fragments;
  }

  /** A page (id 1) without a container below the root, holding one fragment of a page float. */
  function PageWithFragment(node: NodeRef, area: Area): (r: (World, CtxId, Fragment))
    ensures var (w, page, frag) := r; var a := w.contexts;
      && Wf(a) && page == 1 && |a| == 2 && a[page].parent == Some(0)
      && a[page].floatReference == Some(Page) && a[page].container.None? && a[page].children == []
      && frag.area == area && frag.float.sourceNode == node && frag.float.floatReference == Page
      && a[page].fragments == [frag]
  {
    var (w, page) := NewContext(Init(), 0, Page, None, None, None, None);
    var (w1, f) := AddPageFloat(w, page, FloatSpec(node, Page, BlockStart)).value;
    var frag := Fragment(f, area);
    assert Resolve(w1.contexts, page, Page) == Ok(page);
    AddFragmentEffect(w1, page, frag);
    (AddPageFloatFragment(w1, page, frag).value, page, frag)
  }

  /**
   * A page context holds one fragment; removing it leaves no fragment of the float, detaches the
   * area's element and invalidates the context. The page has no container, so nothing is cleared.
   */
  lemma RemoveFragmentScenario(node: NodeRef, area: Area)
    ensures var (w2, page, frag) := PageWithFragment(node, area);
      && FindPageFloatFragment(w2, page, frag.float) == Ok(Some(frag))
      && RemovePageFloatFragment(w2, page, frag).Ok?
      && var w3 := RemovePageFloatFragment(w2, page, frag).value;
      && FindPageFloatFragment(w3, page, frag.float) == Ok(None)
      && w3.log == w2.log + [ElementDetached(area.element), InvalidateCalled(page)]
  {
    var (w2, page, frag) := PageWithFragment(node, area);
    assert Resolve(w2.contexts, page, Page) == Ok(page);
    assert FragmentsUnique(w2.contexts[page].fragments);
    RemoveThenFindFragment(w2, page, frag, page);
    assert InvalidationEvents(w2.contexts[page], page) == [InvalidateCalled(page)];
    AppendTwo(w2.log, ElementDetached(area.element), InvalidateCalled(page));
  }

  /** An anchor registered from the column for a region float, then for a page float, lands at the region, then at the page. */
  lemma RegisterAnchorScenario(n1: NodeRef, n2: NodeRef, anchor: ViewNode)
    requires n1 != n2
    ensures var (w, p, rg, col) := PageRegionColumn(Init(), 0, None);
      var (w1, f1) := AddPageFloat(w, col, FloatSpec(n1, Region, BlockStart)).value;
      && RegisterPageFloatAnchor(w1, col, f1, anchor).Ok?
      && var w2 := RegisterPageFloatAnchor(w1, col, f1, anchor).value;
      && f1.id !in w2.contexts[col].anchors && w2.contexts[rg].anchors == map[f1.id := anchor]
      && var (w3, f2) := AddPageFloat(w2, col, FloatSpec(n2, Page, BlockStart)).value;
      && RegisterPageFloatAnchor(w3, col, f2, anchor).Ok?
      && var w4 := RegisterPageFloatAnchor(w3, col, f2, anchor).value;
      && f2.id !in w4.contexts[col].anchors && f2.id !in w4.contexts[rg].anchors
      && w4.contexts[p].anchors == map[f2.id := anchor]
  {
    var (w, p, rg, col) := PageRegionColumn(Init(), 0, None);
    var (w1, f1) := AddPageFloat(w, col, FloatSpec(n1, Region, BlockStart)).value;
    assert Resolve(w.contexts, col, Region) == Ok(rg);
    ResolveKept(w.contexts, w1.contexts, col, Region);
    var w2 := RegisterPageFloatAnchor(w1, col, f1, anchor).value;
    assert !FloatStore.Knows(w2.store, n2);
    var (w3, f2) := AddPageFloat(w2, col, FloatSpec(n2, Page, BlockStart)).value;
    assert Resolve(w.contexts, col, Page) == Ok(p);
    ResolveKept(w.contexts, w3.contexts, col, Page);
    assert f1.id != f2.id by {
      IdsDistinct(0, 1);
    }
  }

  /**
   * In a column context with a container and flow "foo": an anchor that is not registered, or
   * registered but outside the container, has not appeared; one inside has; and a float carried
   * over from the previous fragmentainer has, wherever its anchor is.
   */
  lemma AnchorAppearedScenario(node: NodeRef, anchor: ViewNode, container: ContainerRef, position: NodePosition)
    ensures var (w, c) := NewContext(Init(), 0, Column, Some(container), Some("foo"), None, None);
      var (w1, f) := AddPageFloat(w, c, FloatSpec(node, Column, BlockStart)).value;
      && !IsAnchorAlreadyAppeared(w1, c, f.id, {anchor})
      && RegisterPageFloatAnchor(w1, c, f, anchor).Ok?
      && var w2 := RegisterPageFloatAnchor(w1, c, f, anchor).value;
      && !IsAnchorAlreadyAppeared(w2, c, f.id, {})
      && IsAnchorAlreadyAppeared(w2, c, f.id, {anchor})
      && var me := w1.contexts[c];
      var w3 := Put(w1, c, me.(deferredFromPrevious := me.deferredFromPrevious + [Continuation(f, position, Some("foo"))]));
      IsAnchorAlreadyAppeared(w3, c, f.id, {})
  {
    var (w, c) := NewContext(Init(), 0, Column, Some(container), Some("foo"), None, None);
    var (w1, f) := AddPageFloat(w, c, FloatSpec(node, Column, BlockStart)).value;
    var me := w1.contexts[c];
    var cont := Continuation(f, position, Some("foo"));
    assert cont in w1.contexts[c].deferredFromPrevious + [cont];
  }

  /**
   * Deferring a column float from the column stores one continuation with the column's flow name;
   * deferring it again replaces the position; a region float deferred from the column goes to the region.
   */
  lemma DeferScenario(n1: NodeRef, n2: NodeRef, pos1: NodePosition, pos2: NodePosition)
    requires n1 != n2
    ensures var (w, p, rg, col) := PageRegionColumn(Init(), 0, Some("foo"));
      var (w1, f) := AddPageFloat(w, col, FloatSpec(n1, Column, BlockStart)).value;
      && DeferPageFloat(w1, col, f, pos1).Ok?
      && var w2 := DeferPageFloat(w1, col, f, pos1).value;
      && w2.contexts[col].deferredToNext == [Continuation(f, pos1, Some("foo"))]
      && DeferPageFloat(w2, col, f, pos2).Ok?
      && var w3 := DeferPageFloat(w2, col, f, pos2).value;
      && w3.contexts[col].deferredToNext == [Continuation(f, pos2, Some("foo"))]
      && var (w4, g) := AddPageFloat(w1, col, FloatSpec(n2, Region, BlockStart)).value;
      && DeferPageFloat(w4, col, g, pos1).Ok?
      && var w5 := DeferPageFloat(w4, col, g, pos1).value;
      && w5.contexts[col].deferredToNext == []
      && w5.contexts[rg].deferredToNext == [Continuation(g, pos1, Some("foo"))]
  {
    var (w, p, rg, col) := PageRegionColumn(Init(), 0, Some("foo"));
    var (w1, f) := AddPageFloat(w, col, FloatSpec(n1, Column, BlockStart)).value;
    DeferTwiceReplaces(w1, col, f, pos1, pos2);
    var w2 := DeferPageFloat(w1, col, f, pos1).value;
    ResolveKept(w1.contexts, w2.contexts, col, Column);
    assert !FloatStore.Knows(w1.store, n2);
    var (w4, g) := AddPageFloat(w1, col, FloatSpec(n2, Region, BlockStart)).value;
    assert Resolve(w.contexts, col, Region) == Ok(rg);
    ResolveKept(w.contexts, w4.contexts, col, Region);
  }

  /** `c` with its list `which` replaced by `conts`. */
  function WithList(c: Context, which: Deferral, conts: seq<Continuation>): Context {
    match which
    case FromPrevious => c.(deferredFromPrevious := conts)
    case ToNext => c.(deferredToNext := conts)
  }

  /** The tree and lists of the getter tests. */
  predicate SeededShape(a: Arena, f: PageFloat, which: Deferral) {
    && Wf(a) && |a| == 4
    && a[1].parent == Some(0) && a[2].parent == Some(1) && a[3].parent == Some(2)
    && a[1].flowName == None && a[3].flowName == Some("foo")
    && ListOf(a[0], which) == []
    && ListOf(a[1], which) == [Continuation(f, 1, Some("foo")), Continuation(f, 2, Some("bar"))]
    && ListOf(a[2], which) == [Continuation(f, 3, Some("foo")), Continuation(f, 4, Some("bar"))]
    && ListOf(a[3], which) == [Continuation(f, 5, Some("foo")), Continuation(f, 6, Some("bar"))]
  }

  /** The six continuations of the getter tests: odd positions in flow "foo", even ones in flow "bar". */
  function Seeded(f: PageFloat, which: Deferral): (a: Arena)
    ensures SeededShape(a, f, which)
  {
    var (w, p, rg, col) := PageRegionColumn(Init(), 0, Some("foo"));
    var w1 := Put(w, p, WithList(w.contexts[p], which, [Continuation(f, 1, Some("foo")), Continuation(f, 2, Some("bar"))]));
    var w2 := Put(w1, rg, WithList(w1.contexts[rg], which, [Continuation(f, 3, Some("foo")), Continuation(f, 4, Some("bar"))]));
    var w3 := Put(w2, col, WithList(w2.contexts[col], which, [Continuation(f, 5, Some("foo")), Continuation(f, 6, Some("bar"))]));
    w3.contexts
  }

  /** The two flow names of the getter tests differ. */
  lemma FooIsNotBar()
    ensures Some("foo") != Some("bar")
  {
    assert "foo"[0] != "bar"[0];
  }

  /** The flow filter on a two-element list. */
  lemma FilterPair(x: Continuation, y: Continuation, flow: Option<string>)
    ensures FilterFlow([x, y], flow)
      == (if FlowMatches(x, flow) then [x] else []) + (if FlowMatches(y, flow) then [y] else [])
  {
    assert [x, y][1..] == [y];
    assert [y][1..] == [];
  }

  /** Collecting flow "foo" from the column takes the first continuation of each level. */
  lemma CollectFooScenario(a: Arena, f: PageFloat, which: Deferral)
    requires SeededShape(a, f, which)
    ensures Collect(a, 3, Some("foo"), which)
      == [Continuation(f, 1, Some("foo")), Continuation(f, 3, Some("foo")), Continuation(f, 5, Some("foo"))]
  {
    assert Collect(a, 0, Some("foo"), which) == [];
    assert FilterFlow(ListOf(a[1], which), Some("foo")) == [Continuation(f, 1, Some("foo"))] by {
      FooIsNotBar();
      FilterPair(Continuation(f, 1, Some("foo")), Continuation(f, 2, Some("bar")), Some("foo"));
    }
    assert Collect(a, 1, Some("foo"), which) == Collect(a, 0, Some("foo"), which) + [Continuation(f, 1, Some("foo"))];
    assert FilterFlow(ListOf(a[2], which), Some("foo")) == [Continuation(f, 3, Some("foo"))] by {
      FooIsNotBar();
      FilterPair(Continuation(f, 3, Some("foo")), Continuation(f, 4, Some("bar")), Some("foo"));
    }
    assert Collect(a, 2, Some("foo"), which) == Collect(a, 1, Some("foo"), which) + [Continuation(f, 3, Some("foo"))];
    assert FilterFlow(ListOf(a[3], which), Some("foo")) == [Continuation(f, 5, Some("foo"))] by {
      FooIsNotBar();
      FilterPair(Continuation(f, 5, Some("foo")), Continuation(f, 6, Some("bar")), Some("foo"));
    }
    assert Collect(a, 3, Some("foo"), which) == Collect(a, 2, Some("foo"), which) + [Continuation(f, 5, Some("foo"))];
  }

  /** Collecting flow "bar" from the column takes the second continuation of each level. */
  lemma CollectBarScenario(a: Arena, f: PageFloat, which: Deferral)
    requires SeededShape(a, f, which)
    ensures Collect(a, 3, Some("bar"), which)
      == [Continuation(f, 2, Some("bar")), Continuation(f, 4, Some("bar")), Continuation(f, 6, Some("bar"))]
  {
    assert Collect(a, 0, Some("bar"), which) == [];
    assert FilterFlow(ListOf(a[1], which), Some("bar")) == [Continuation(f, 2, Some("bar"))] by {
      FooIsNotBar();
      FilterPair(Continuation(f, 1, Some("foo")), Continuation(f, 2, Some("bar")), Some("bar"));
    }
    assert Collect(a, 1, Some("bar"), which) == Collect(a, 0, Some("bar"), which) + [Continuation(f, 2, Some("bar"))];
    assert FilterFlow(ListOf(a[2], which), Some("bar")) == [Continuation(f, 4, Some("bar"))] by {
      FooIsNotBar();
      FilterPair(Continuation(f, 3, Some("foo")), Continuation(f, 4, Some("bar")), Some("bar"));
    }
    assert Collect(a, 2, Some("bar"), which) == Collect(a, 1, Some("bar"), which) + [Continuation(f, 4, Some("bar"))];
    assert FilterFlow(ListOf(a[3], which), Some("bar")) == [Continuation(f, 6, Some("bar"))] by {
      FooIsNotBar();
      FilterPair(Continuation(f, 5, Some("foo")), Continuation(f, 6, Some("bar")), Some("bar"));
    }
    assert Collect(a, 3, Some("bar"), which) == Collect(a, 2, Some("bar"), which) + [Continuation(f, 6, Some("bar"))];
  }

  /** Collecting without a flow from the page takes all of the page's continuations. */
  lemma CollectUnfilteredScenario(a: Arena, f: PageFloat, which: Deferral)
    requires SeededShape(a, f, which)
    ensures Collect(a, 1, None, which) == [Continuation(f, 1, Some("foo")), Continuation(f, 2, Some("bar"))]
  {
    assert Collect(a, 0, None, which) == [];
  }

  /**
   * From the column, each getter lists the page's, the region's and the column's continuations of
   * the column's flow "foo" (or of "bar" when asked for), in that order; from the page, which has no
   * flow name, it lists all of the page's.
   */
  lemma GettersScenario(f: PageFloat)
    ensures var a := Seeded(f, FromPrevious);
      && GetDeferredPageFloatContinuations(a, 3, None)
           == [Continuation(f, 1, Some("foo")), Continuation(f, 3, Some("foo")), Continuation(f, 5, Some("foo"))]
      && GetDeferredPageFloatContinuations(a, 3, Some("bar"))
           == [Continuation(f, 2, Some("bar")), Continuation(f, 4, Some("bar")), Continuation(f, 6, Some("bar"))]
      && GetDeferredPageFloatContinuations(a, 1, None)
           == [Continuation(f, 1, Some("foo")), Continuation(f, 2, Some("bar"))]
    ensures var a := Seeded(f, ToNext);
      && GetPageFloatContinuationsDeferredToNext(a, 3, None)
           == [Continuation(f, 1, Some("foo")), Continuation(f, 3, Some("foo")), Continuation(f, 5, Some("foo"))]
      && GetPageFloatContinuationsDeferredToNext(a, 3, Some("bar"))
           == [Continuation(f, 2, Some("bar")), Continuation(f, 4, Some("bar")), Continuation(f, 6, Some("bar"))]
      && GetPageFloatContinuationsDeferredToNext(a, 1, None)
           == [Continuation(f, 1, Some("foo")), Continuation(f, 2, Some("bar"))]
  {
    CollectFooScenario(Seeded(f, FromPrevious), f, FromPrevious);
    CollectBarScenario(Seeded(f, FromPrevious), f, FromPrevious);
    CollectUnfilteredScenario(Seeded(f, FromPrevious), f, FromPrevious);
    CollectFooScenario(Seeded(f, ToNext), f, ToNext);
    CollectBarScenario(Seeded(f, ToNext), f, ToNext);
    CollectUnfilteredScenario(Seeded(f, ToNext), f, ToNext);
  }

  /** The column float registered `n`-th from source node `n`. */
  function F(n: nat): PageFloat {
    PageFloat(IdOf(n), n, Column, BlockStart)
  }

  function Frag(n: nat): Fragment {
    Fragment(F(n), Area(n))
  }

  function Cont(n: nat, flow: string): Continuation {
    Continuation(F(n), n, Some(flow))
  }

  /** The arena shape of the `finish` tests: one column context, id 1, below the root. */
  predicate OneColumn(w: World) {
    && Wf(w.contexts) && |w.contexts| == 2 && w.contexts[1].floatReference == Some(Column)
    && w.contexts[1].container == None
    && forall g :: g in w.store.floats ==> g == F(g.sourceNode)
  }

  /** Registers the `n`-th float through the column; with `place`, also adds its fragment there. */
  function Register(w: World, n: nat, place: bool): (w': World)
    requires OneColumn(w) && |w.store.floats| == n && FloatStore.Valid(w.store)
    requires forall g :: g in w.store.floats ==> g.sourceNode < n
    ensures OneColumn(w') && FloatStore.Valid(w'.store) && w'.store.floats == w.store.floats + [F(n)]
    ensures forall g :: g in w'.store.floats ==> g.sourceNode < n + 1
    ensures var (me, me') := (w.contexts[1], w'.contexts[1]);
      && me'.fragments == me.fragments + (if place then [Frag(n)] else [])
      && me'.forbidden == me.forbidden
      && me'.deferredFromPrevious == me.deferredFromPrevious && me'.deferredToNext == me.deferredToNext
  {
    var spec := FloatSpec(n, Column, BlockStart);
    assert !FloatStore.Knows(w.store, n);
    FloatStore.AddPreservesValid(w.store, spec);
    var (w1, f) := AddPageFloat(w, 1, spec).value;
    assert f == F(n);
    if place then
      AddFragmentEffect(w1, 1, Frag(n));
      AddPageFloatFragment(w1, 1, Frag(n)).value
    else w1
  }

  /** The context the `finish` tests start from: a new column below the root, with an empty store. */
  predicate FreshColumn(w: World) {
    && OneColumn(w) && w.store.floats == []
    && var me := w.contexts[1];
    && me.forbidden == {} && me.fragments == [] && me.deferredFromPrevious == [] && me.deferredToNext == []
  }

  /** The suite's `beforeEach` creates such a column below the root. */
  lemma InitColumnIsFresh()
    ensures FreshColumn(NewContext(Init(), 0, Column, None, None, None, None).0)
  {
  }

  /** The column with pf0 and pf1 registered and placed. */
  function TwoPlaced(w: World): (w': World)
    requires FreshColumn(w)
    ensures OneColumn(w') && FloatStore.Valid(w'.store)
    ensures w'.store.floats == [F(0), F(1)]
    ensures forall g :: g in w'.store.floats ==> g.sourceNode < 2
    ensures var me := w'.contexts[1];
      && me.forbidden == {} && me.fragments == [Frag(0), Frag(1)]
      && me.deferredFromPrevious == [] && me.deferredToNext == []
  {
    var w0 := Register(w, 0, true);
    assert w0.store.floats == [F(0)] && w0.contexts[1].fragments == [Frag(0)];
    Register(w0, 1, true)
  }

  /** `TwoPlaced` with pf2 and pf3 registered as well, without fragments. */
  function FourRegistered(w: World): (w': World)
    requires FreshColumn(w)
    ensures OneColumn(w') && FloatStore.Valid(w'.store)
    ensures w'.store.floats == [F(0), F(1), F(2), F(3)]
    ensures forall g :: g in w'.store.floats ==> g.sourceNode < 4
    ensures var me := w'.contexts[1];
      && me.forbidden == {} && me.fragments == [Frag(0), Frag(1)]
  {
    var w2 := Register(TwoPlaced(w), 2, false);
    assert w2.store.floats == [F(0), F(1), F(2)];
    Register(w2, 3, false)
  }

  /**
   * What the fixture of the `finish` tests looks like: a column context (id 1) below the root with
   * floats pf0 to pf3, fragments of pf0 and pf1, continuations of pf0, pf2 and pf3 carried over
   * from the previous fragmentainer, and the continuation of pf2 deferred to the next one.
   */
  predicate FinishShape(w: World) {
    && OneColumn(w) && FloatStore.Valid(w.store)
    && w.store.floats == [F(0), F(1), F(2), F(3)]
    && (forall g :: g in w.store.floats ==> g.sourceNode < 4)
    && var me := w.contexts[1];
    && me.forbidden == {}
    && me.fragments == [Frag(0), Frag(1)]
    && me.deferredFromPrevious == [Cont(0, "foo"), Cont(2, "bar"), Cont(3, "baz")]
    && me.deferredToNext == [Cont(2, "bar")]
  }

  /** The fixture of the `finish` tests, built from a fresh column as the suite's `beforeEach` does. */
  function FinishFixture(w: World): (w': World)
    requires FreshColumn(w)
    ensures FinishShape(w')
  {
    var w1 := FourRegistered(w);
    var me := w1.contexts[1];
    Put(w1, 1, me.(deferredFromPrevious := [Cont(0, "foo"), Cont(2, "bar"), Cont(3, "baz")], deferredToNext := [Cont(2, "bar")]))
  }

  /** The floats of the fixture have pairwise different ids. */
  lemma FixtureIdsDistinct()
    ensures forall m, n :: 0 <= m < 5 && 0 <= n < 5 && m != n ==> IdOf(m) != IdOf(n)
  {
    forall m, n | 0 <= m < 5 && 0 <= n < 5 && m != n
      ensures IdOf(m) != IdOf(n)
    {
      IdsDistinct(m, n);
    }
  }

  /** No anchor has appeared. */
  predicate Never(id: FloatId) {
    false
  }

  /** Every anchor has appeared. */
  predicate Always(id: FloatId) {
    true
  }

  /** A column context, id 1, below the root holding the fragments of pf0 and pf1. */
  predicate PlacedColumn(w: World) {
    && Wf(w.contexts) && |w.contexts| == 2 && w.contexts[1].floatReference == Some(Column)
    && w.contexts[1].fragments == [Frag(0), Frag(1)]
  }

  /** The arena shape `finish` leaves behind: still one column context, id 1, below the root. */
  predicate FinishedColumn(w: World) {
    Wf(w.contexts) && |w.contexts| == 2 && w.contexts[1].floatReference == Some(Column)
  }

  /** In such a column, `isForbidden` of the `n`-th fixture float reads the column's own marks. */
  lemma ColumnIsForbidden(w: World, n: nat)
    requires FinishedColumn(w)
    ensures IsForbidden(w, 1, F(n)) == Ok(IdOf(n) in w.contexts[1].forbidden)
  {
    assert Resolve(w.contexts, 1, Column) == Ok(1);
  }

  /** pf0 has its fragment in the column; pf2 and pf3 have none. */
  lemma PlacedFinds(w: World)
    requires PlacedColumn(w)
    ensures FindPageFloatFragment(w, 1, F(0)) == Ok(Some(Frag(0)))
    ensures FindPageFloatFragment(w, 1, F(2)) == Ok(None)
    ensures FindPageFloatFragment(w, 1, F(3)) == Ok(None)
  {
    FixtureIdsDistinct();
    assert Resolve(w.contexts, 1, Column) == Ok(1);
  }

  /** Carrying over pf3's continuation after pf2's appends it. */
  lemma TransferLast(w: World)
    requires PlacedColumn(w)
    ensures Transfer(w, 1, [Cont(2, "bar")], [Cont(3, "baz")]) == Ok([Cont(2, "bar"), Cont(3, "baz")])
  {
    PlacedFinds(w);
    FixtureIdsDistinct();
    assert Cont(3, "baz") !in [Cont(2, "bar")];
    assert [Cont(2, "bar")] + [Cont(3, "baz")] == [Cont(2, "bar"), Cont(3, "baz")];
    assert [Cont(3, "baz")][1..] == [];
  }

  /**
   * Carrying over the fixture's three continuations: pf0's is skipped because pf0 has a fragment,
   * pf2's is appended unless already kept, pf3's is appended.
   */
  lemma TransferFixture(w: World)
    requires PlacedColumn(w)
    ensures Transfer(w, 1, [Cont(2, "bar")], [Cont(0, "foo"), Cont(2, "bar"), Cont(3, "baz")])
      == Ok([Cont(2, "bar"), Cont(3, "baz")])
    ensures Transfer(w, 1, [], [Cont(0, "foo"), Cont(2, "bar"), Cont(3, "baz")])
      == Ok([Cont(2, "bar"), Cont(3, "baz")])
  {
    PlacedFinds(w);
    FixtureIdsDistinct();
    TransferLast(w);
    var pending := [Cont(0, "foo"), Cont(2, "bar"), Cont(3, "baz")];
    assert pending[1..] == [Cont(2, "bar"), Cont(3, "baz")] && pending[1..][1..] == [Cont(3, "baz")];
    assert Cont(0, "foo") !in [Cont(2, "bar")];
    assert [] + [Cont(2, "bar")] == [Cont(2, "bar")];
  }

  /** With no anchor appeared, `finish` removes the fragment of pf1 only, detaching its element, and keeps the deferred-to-next list. */
  lemma FinishNoneAppearedRemoves(w: World)
    requires FinishShape(w)
    ensures var r := Finish(w, 1, Never);
      && r.Ok? && FinishedColumn(r.value)
      && r.value.log == w.log + [ElementDetached(1), InvalidateCalled(1)]
      && r.value.contexts[1].fragments == [Frag(0)]
      && r.value.contexts[1].deferredToNext == [Cont(2, "bar")]
      && r.value.contexts[1].forbidden == {IdOf(1)}
  {
    assert Local(w.contexts, 1);
    FinishRemovesLastUnappeared(w, 1, Never, 1);
    assert IndexOf([Frag(0), Frag(1)], Frag(1)) == 1;
    assert InvalidationEvents(w.contexts[1], 1) == [InvalidateCalled(1)];
    AppendTwo(w.log, ElementDetached(1), InvalidateCalled(1));
  }

  /** With no anchor appeared, `finish` forbids pf1 and not pf0. */
  lemma FinishNoneAppearedForbids(w: World)
    requires FinishShape(w)
    ensures var r := Finish(w, 1, Never);
      && r.Ok?
      && IsForbidden(r.value, 1, F(1)) == Ok(true)
      && IsForbidden(r.value, 1, F(0)) == Ok(false)
  {
    assert Finish(w, 1, Never).Ok? && FinishedColumn(Finish(w, 1, Never).value)
      && Finish(w, 1, Never).value.contexts[1].forbidden == {IdOf(1)}
    by {
      FinishNoneAppearedRemoves(w);
    }
    var w' := Finish(w, 1, Never).value;
    ColumnIsForbidden(w', 0);
    ColumnIsForbidden(w', 1);
    IdsDistinct(0, 1);
  }

  /** Only the anchor of pf1 has appeared. */
  predicate OnlyPf1(id: FloatId) {
    id == IdOf(1)
  }

  /** With only pf1's anchor appeared, `finish` removes the fragment of pf0, detaching its element. */
  lemma FinishLastAppearedRemoves(w: World)
    requires FinishShape(w)
    ensures var r := Finish(w, 1, OnlyPf1);
      && r.Ok?
      && r.value.log == w.log + [ElementDetached(0), InvalidateCalled(1)]
      && multiset(r.value.contexts[1].fragments) == multiset{Frag(1)}
  {
    IdsDistinct(0, 1);
    assert Local(w.contexts, 1);
    FinishRemovesLastUnappeared(w, 1, OnlyPf1, 0);
    assert InvalidationEvents(w.contexts[1], 1) == [InvalidateCalled(1)];
    AppendTwo(w.log, ElementDetached(0), InvalidateCalled(1));
    assert multiset([Frag(0), Frag(1)]) - multiset{Frag(0)} == multiset{Frag(1)};
  }

  /** With only pf1's anchor appeared, `finish` forbids pf0 at the column and keeps the deferred-to-next list. */
  lemma FinishLastAppearedMarks(w: World)
    requires FinishShape(w)
    ensures var r := Finish(w, 1, OnlyPf1);
      && r.Ok? && FinishedColumn(r.value)
      && r.value.contexts[1].deferredToNext == [Cont(2, "bar")]
      && r.value.contexts[1].forbidden == {IdOf(0)}
  {
    IdsDistinct(0, 1);
    assert Local(w.contexts, 1);
    FinishRemovesLastUnappeared(w, 1, OnlyPf1, 0);
  }

  /** With only pf1's anchor appeared, `finish` forbids pf0 and not pf1. */
  lemma FinishLastAppearedForbids(w: World)
    requires FinishShape(w)
    ensures var r := Finish(w, 1, OnlyPf1);
      && r.Ok?
      && IsForbidden(r.value, 1, F(0)) == Ok(true)
      && IsForbidden(r.value, 1, F(1)) == Ok(false)
  {
    FinishLastAppearedMarks(w);
    var w' := Finish(w, 1, OnlyPf1).value;
    ColumnIsForbidden(w', 0);
    ColumnIsForbidden(w', 1);
    IdsDistinct(0, 1);
  }

  /**
   * With every anchor appeared, nothing is removed; pf2's continuation stays, pf0's is not carried
   * over because pf0 has a fragment here, and pf3's is appended.
   */
  lemma FinishAllAppearedScenario(w: World)
    requires FinishShape(w)
    ensures var r := Finish(w, 1, Always);
      && r.Ok?
      && r.value.log == w.log
      && r.value.contexts[1].fragments == [Frag(0), Frag(1)]
      && r.value.contexts[1].deferredToNext == [Cont(2, "bar"), Cont(3, "baz")]
  {
    var me := w.contexts[1];
    assert LastUnappeared(me.fragments, Always) == None;
    assert KeepAppeared([Cont(2, "bar")], Always) == [Cont(2, "bar")];
    TransferFixture(w);
  }

  /** Only the anchors of pf0 and pf1 have appeared. */
  predicate Pf0OrPf1(id: FloatId) {
    id == IdOf(0) || id == IdOf(1)
  }

  /** The fixture with pf4 registered and the continuations of pf2 and pf4 deferred to the next fragmentainer. */
  function WithPf4(w: World): (w': World)
    requires FinishShape(w)
    ensures OneColumn(w')
    ensures var (me, me') := (w.contexts[1], w'.contexts[1]);
      && me'.fragments == me.fragments && me'.deferredFromPrevious == me.deferredFromPrevious
      && me'.deferredToNext == [Cont(2, "bar"), Cont(4, "aaa")]
      && w'.log == w.log
  {
    var w1 := Register(w, 4, false);
    var me := w1.contexts[1];
    Put(w1, 1, me.(deferredToNext := [Cont(2, "bar"), Cont(4, "aaa")]))
  }

  /**
   * With the anchors of pf0 and pf1 appeared, `finish` drops the continuations of pf2 and pf4 whose
   * anchors have not appeared, then carries over those of pf2 and pf3, which have no fragment here.
   */
  lemma FinishDropsUnappearedScenario(w: World)
    requires FinishShape(w)
    ensures var r := Finish(WithPf4(w), 1, Pf0OrPf1);
      && r.Ok?
      && r.value.log == w.log
      && r.value.contexts[1].deferredToNext == [Cont(2, "bar"), Cont(3, "baz")]
  {
    var w1 := WithPf4(w);
    FixtureIdsDistinct();
    var me := w1.contexts[1];
    assert LastUnappeared(me.fragments, Pf0OrPf1) == None;
    assert KeepAppeared([Cont(2, "bar"), Cont(4, "aaa")], Pf0OrPf1) == [] by {
      assert [Cont(2, "bar"), Cont(4, "aaa")][1..] == [Cont(4, "aaa")];
      assert [Cont(4, "aaa")][1..] == [];
    }
    TransferFixture(w1);
  }

  /** A page context with a container below the root; invalidating it clears the container and marks it. */
  lemma InvalidateContainerScenario(container: ContainerRef)
    ensures var (w, p) := NewContext(Init(), 0, Page, Some(container), None, None, None);
      && !IsInvalidated(w.contexts, p)
      && var w' := Invalidate(w, p);
      && w'.log == [InvalidateCalled(p), ContainerCleared(container)]
      && IsInvalidated(w'.contexts, p)
  {
  }

  /** Invalidating a page context forgets the anchor registered for its page float. */
  lemma InvalidateForgetsAnchorScenario(node: NodeRef, anchor: ViewNode)
    ensures var (w, p) := Plain(Init(), 0, Page);
      var (w1, f) := AddPageFloat(w, p, FloatSpec(node, Page, BlockStart)).value;
      var r := RegisterPageFloatAnchor(w1, p, f, anchor);
      && r.Ok? && r.value.contexts[p].anchors == map[f.id := anchor]
      && Invalidate(r.value, p).contexts[p].anchors == map[]
  {
    var (w, p) := Plain(Init(), 0, Page);
    assert w.contexts[p].anchors == map[];
  }

  /** Invalidating a page context forgets the region context created below it. */
  lemma InvalidateClearsChildrenScenario()
    ensures var (w, p) := Plain(Init(), 0, Page);
      var (w1, rg) := Plain(w, p, Region);
      && w1.contexts[p].children == [rg]
      && Invalidate(w1, p).contexts[p].children == []
  {
  }

  /**
   * Invalidation is seen from below and not from above: a column, region and page invalidated and
   * validated in turn.
   */
  lemma IsInvalidatedScenario()
    ensures var (w, p, rg, col) := PageRegionColumn(Init(), 0, None);
      && !IsInvalidated(w.contexts, col) && !IsInvalidated(w.contexts, rg) && !IsInvalidated(w.contexts, p)
      && var w1 := Invalidate(w, col);
      && IsInvalidated(w1.contexts, col) && !IsInvalidated(w1.contexts, rg) && !IsInvalidated(w1.contexts, p)
      && var w2 := Validate(w1, col);
      && !IsInvalidated(w2.contexts, col)
      && var w3 := Invalidate(w2, rg);
      && IsInvalidated(w3.contexts, col) && IsInvalidated(w3.contexts, rg) && !IsInvalidated(w3.contexts, p)
      && var w4 := Validate(w3, rg);
      && !IsInvalidated(w4.contexts, rg)
      && var w5 := Invalidate(w4, p);
      && IsInvalidated(w5.contexts, col) && IsInvalidated(w5.contexts, rg) && IsInvalidated(w5.contexts, p)
  {
    var (w, p, rg, col) := PageRegionColumn(Init(), 0, None);
    assert !w.contexts[0].invalidated && !w.contexts[p].invalidated;
    assert !w.contexts[rg].invalidated && !w.contexts[col].invalidated;
  }

  /** A column context (id 1) below the root with one column float placed in it. */
  function ColumnFragment(n1: NodeRef, area1: Area): (r: (World, PageFloat))
    ensures var (w, f1) := r; var a := w.contexts;
      && Wf(a) && |a| == 2 && w.store.floats == [f1] && f1.sourceNode == n1
      && a[0].parent == None && a[1].parent == Some(0) && a[1].floatReference == Some(Column)
      && a[0].fragments == [] && a[1].fragments == [Fragment(f1, area1)]
  {
    var (w, col) := Plain(Init(), 0, Column);
    assert w.contexts[0].fragments == [] && w.contexts[col].fragments == [];
    var (w1, f1) := AddPageFloat(w, col, FloatSpec(n1, Column, BlockStart)).value;
    var frag1 := Fragment(f1, area1);
    assert Resolve(w1.contexts, col, Column) == Ok(col);
    AddFragmentEffect(w1, col, frag1);
    (AddPageFloatFragment(w1, col, frag1).value, f1)
  }

  /** `ColumnFragment` with a second column float added through the same column. */
  function ColumnSecondFloat(n1: NodeRef, n2: NodeRef, area1: Area): (r: (World, PageFloat, PageFloat))
    requires n1 != n2
    ensures var (w, f1, f2) := r; var a := w.contexts;
      && Wf(a) && |a| == 2 && a[1].parent == Some(0) && a[1].floatReference == Some(Column)
      && f2.floatReference == Column
      && a[0].fragments == [] && a[1].fragments == [Fragment(f1, area1)]
  {
    var (w1, f1) := ColumnFragment(n1, area1);
    assert !FloatStore.Knows(w1.store, n2);
    var (w2, f2) := AddPageFloat(w1, 1, FloatSpec(n2, Column, BlockStart)).value;
    (w2, f1, f2)
  }

  /** `ColumnSecondFloat` with the second float placed through the column. */
  function ColumnTwoFragments(n1: NodeRef, n2: NodeRef, area1: Area, area2: Area): (r: (World, PageFloat, PageFloat))
    requires n1 != n2
    ensures var (w, f1, f2) := r; var a := w.contexts;
      && ParentsPrecede(a) && |a| == 2 && a[0].parent == None && a[1].parent == Some(0)
      && a[0].fragments == [] && a[1].fragments == [Fragment(f1, area1), Fragment(f2, area2)]
  {
    var (w2, f1, f2) := ColumnSecondFloat(n1, n2, area1);
    var frag2 := Fragment(f2, area2);
    assert Resolve(w2.contexts, 1, Column) == Ok(1);
    AddFragmentEffect(w2, 1, frag2);
    (AddPageFloatFragment(w2, 1, frag2).value, f1, f2)
  }

  /** The exclusions of a column holding the fragments of two column floats are their outer shapes, in order. */
  lemma ExclusionsScenario(n1: NodeRef, n2: NodeRef, area1: Area, area2: Area, outerShape: Area -> Shape)
    requires n1 != n2
    ensures GetFloatFragmentExclusions(ColumnTwoFragments(n1, n2, area1, area2).0.contexts, 1, outerShape)
      == [outerShape(area1), outerShape(area2)]
  {
    var a := ColumnTwoFragments(n1, n2, area1, area2).0.contexts;
    assert GetFloatFragmentExclusions(a, 0, outerShape) == [];
    var r := GetFloatFragmentExclusions(a, 1, outerShape);
    assert |r| == 2 && r[0] == outerShape(area1) && r[1] == outerShape(area2);
  }

  /** A region context (id 1) below the root and a column (id 2) below it, with a region float placed in the region. */
  function RegionFragment(n1: NodeRef, area1: Area): (r: (World, PageFloat))
    ensures var (w, f1) := r; var a := w.contexts;
      && Wf(a) && |a| == 3 && w.store.floats == [f1] && f1.sourceNode == n1
      && a[0].parent == None && a[1].parent == Some(0) && a[2].parent == Some(1)
      && a[2].floatReference == Some(Column)
      && a[0].fragments == [] && a[1].fragments == [Fragment(f1, area1)] && a[2].fragments == []
  {
    var (w, rg) := Plain(Init(), 0, Region);
    var (w1, col) := Plain(w, rg, Column);
    assert w1.contexts[0].fragments == [] && w1.contexts[rg].fragments == [] && w1.contexts[col].fragments == [];
    var (w2, f1) := AddPageFloat(w1, rg, FloatSpec(n1, Region, BlockStart)).value;
    var frag1 := Fragment(f1, area1);
    assert Resolve(w2.contexts, rg, Region) == Ok(rg);
    AddFragmentEffect(w2, rg, frag1);
    (AddPageFloatFragment(w2, rg, frag1).value, f1)
  }

  /** `RegionFragment` with a column float added through the column. */
  function RegionColumnFloat(n1: NodeRef, n2: NodeRef, area1: Area): (r: (World, PageFloat, PageFloat))
    requires n1 != n2
    ensures var (w, f1, f2) := r; var a := w.contexts;
      && Wf(a) && |a| == 3 && a[0].parent == None && a[1].parent == Some(0) && a[2].parent == Some(1)
      && a[2].floatReference == Some(Column) && f2.floatReference == Column
      && a[0].fragments == [] && a[1].fragments == [Fragment(f1, area1)] && a[2].fragments == []
  {
    var (w3, f1) := RegionFragment(n1, area1);
    assert !FloatStore.Knows(w3.store, n2);
    var (w4, f2) := AddPageFloat(w3, 2, FloatSpec(n2, Column, BlockStart)).value;
    (w4, f1, f2)
  }

  /** `RegionColumnFloat` with the column float placed through the column. */
  function RegionColumnFragments(n1: NodeRef, n2: NodeRef, area1: Area, area2: Area): (r: (World, PageFloat, PageFloat))
    requires n1 != n2
    ensures var (w, f1, f2) := r; var a := w.contexts;
      && ParentsPrecede(a) && |a| == 3 && a[0].parent == None && a[1].parent == Some(0) && a[2].parent == Some(1)
      && a[0].fragments == [] && a[1].fragments == [Fragment(f1, area1)] && a[2].fragments == [Fragment(f2, area2)]
  {
    var (w4, f1, f2) := RegionColumnFloat(n1, n2, area1);
    var frag2 := Fragment(f2, area2);
    assert Resolve(w4.contexts, 2, Column) == Ok(2);
    AddFragmentEffect(w4, 2, frag2);
    (AddPageFloatFragment(w4, 2, frag2).value, f1, f2)
  }

  /**
   * A region float placed in the region and a column float placed in the column below it: the
   * column's exclusions are the region's shape, then its own.
   */
  lemma ExclusionsFromParentScenario(n1: NodeRef, n2: NodeRef, area1: Area, area2: Area, outerShape: Area -> Shape)
    requires n1 != n2
    ensures GetFloatFragmentExclusions(RegionColumnFragments(n1, n2, area1, area2).0.contexts, 2, outerShape)
      == [outerShape(area1), outerShape(area2)]
  {
    var a := RegionColumnFragments(n1, n2, area1, area2).0.contexts;
    assert GetFloatFragmentExclusions(a, 0, outerShape) == [];
    assert GetFloatFragmentExclusions(a, 1, outerShape) == [outerShape(area1)];
  }
}

=== FILE: seqs.dfy ===
/** Sequence helpers shared by the context operations. */
module Seqs {

  /** Position of the first `x` in `s`, or `|s|` when `x` does not occur (`indexOf`, with -1 read as `|s|`). */
  function IndexOf<T(==)>(s: seq<T>, x: T): (i: nat)
    ensures i <= |s|
    ensures i < |s| ==> s[i] == x && x !in s[..i]
    ensures i == |s| ==> x !in s
  {
    if s == [] then 0
    else if s[0] == x then 0
    else
      var j := IndexOf(s[1..], x);
      assert s[1..][..j] == s[1..j + 1];
      assert s[..j + 1] == [s[0]] + s[1..j + 1];
      1 + j
  }

  /** `s` without its first `x`, the other elements kept in order; `s` itself when `x` does not occur. */
  function RemoveFirst<T(==)>(s: seq<T>, x: T): (r: seq<T>)
    ensures multiset(r) == multiset(s) - multiset{x}
    ensures x in s ==> |r| == |s| - 1 && r == s[..IndexOf(s, x)] + s[IndexOf(s, x) + 1..]
    ensures x !in s ==> r == s
  {
    var i := IndexOf(s, x);
    if i == |s| then s
    else
      assert s == s[..i] + [x] + s[i + 1..];
      s[..i] + s[i + 1..]
  }

  /** No element occurs twice. */
  predicate Distinct<T(==)>(s: seq<T>) {
    forall i, j :: 0 <= i < j < |s| ==> s[i] != s[j]
  }

  /** Dropping a prefix of a concatenation leaves the rest. */
  lemma DropPrefix<T>(x: seq<T>, y: seq<T>)
    ensures (x + y)[|x|..] == y
  {
  }

  /** Regrouping a four-part concatenation to split off its first part. */
  lemma SplitFirst<T>(x: seq<T>, a: seq<T>, m: seq<T>, e: seq<T>)
    ensures x + a + m + e == x + (a + m + e)
  {
  }

  /** Appending two single elements one after the other appends the pair. */
  lemma AppendTwo<T>(x: seq<T>, a: T, b: T)
    ensures x + [a] + [b] == x + [a, b]
  {
  }
}

=== FILE: wrappers.dfy ===
/** Absent values and failures, usable with `:-`. */
module Wrappers {

  /** An optional value; `None` stands for the source's `null`. */
  datatype Option<+T> = None | Some(value: T)

  /** A value or an error; `Err` stands for a thrown exception. */
  datatype Result<+T, +E> = Ok(value: T) | Err(error: E) {

    predicate IsFailure() {
      Err?
    }

    function PropagateFailure<U>(): Result<U, E>
      requires Err?
    {
      Err(error)
    }

    function Extract(): T
      requires Ok?
    {
      value
    }
  }
}
